=== FILE: README.md ===
# JsBit build engine in Dafny

JsBit is a static asset bundler. A project names a set of output packages, which are
script or stylesheet bundles. Each package has a file identifier, a list of includes (source
files) and, optionally, a list of other packages it depends on. The build engine
(`JsbBuilder`) does four things:

- It fills in defaults for unset build options.
- It resolves a build order in which every package comes after the packages it depends on.
- It builds each package in that order. A package's debug text is its license comment,
  then the debug outputs of its dependencies (when it inlines them), then its includes.
  The debug text goes to `<deploy>/<stem>-debug<ext>`. Its minification goes to
  `<deploy>/<file>`.
- It stops at the first error and keeps everything already written.

Missing defaults are filled in this way: an unset destination becomes the current directory, an unset
source becomes the project file's directory, and an unset deploy path becomes the
project's deploy directory under the destination.

This project models that engine with immutable datatypes and pure functions. The file
system is a map from path to contents, and the minifier is a function parameter. It proves:

- the resolver returns a permutation of the packages with dependencies first, and succeeds
  exactly on well-formed projects;
- every error it reports is explained by the input;
- the layout of the license block and of the debug text;
- the debug and minified paths never coincide;
- when packages are built in resolved order, a dependency's debug output always exists
  when a dependent inlines it;
- the build's outcome is exactly the package-by-package fold `Builder.Built` over the
  resolved order: each package, when it is built, writes its debug text to its debug
  path and that text's minification to its minified path (a later package may
  overwrite a path that coincides with one of its own), and a failing include stops the
  build with everything earlier kept;
- packages already declared dependencies-first keep their declared order.

Modules, one per file:

- `Wrappers` (`wrappers.dfy`): `Option` and `Result`.
- `Model` (`model.dfy`): project, package, include, build options and build errors.
- `Text` (`text.dfy`): `Split`, `TrimEnd`, `WriteLine` as `Lines`, ASCII lower-casing.
- `Paths` (`paths.dfy`): `Path.Combine`, `GetDirectoryName`, `GetFileName`,
  `GetExtension`, `GetFileNameWithoutExtension`, and the two output paths of a package.
- `Resolver` (`resolver.dfy`): `ResolveBuildOrder` and the graph vocabulary used to state
  its contract.
- `ResolverExamples` (`resolver_examples.dfy`): small projects resolved in full.
- `Assembly` (`assembly.dfy`): `WriteLicense`, `BuildPackage` and the minifier choice.
- `AssemblyExamples` (`assembly_examples.dfy`): concrete debug text and minifier kinds.
- `Builder` (`builder.dfy`): `ApplyProjectOptions` and the `Build` driver.

Facts about the code that shape the model:

- The code keeps one `visited` dictionary per root and never removes entries from it.
  `Resolver.Visit` proves that visited-but-not-added is exactly the traversal stack.
- A package whose dependency list is null is never marked visited. Such a package has no
  outgoing edges, so it can never lie on a cycle.
- Output paths of different packages may coincide: `a.js` writes `a-debug.js`, which is
  the minified path of a package `a-debug.js`. `Builder.Build` is stated without
  assuming the paths are disjoint.

## Model

| member | source | states |
|---|---|---|
| Resolver.BuildTable | src/JsBit/JsbBuilder.cs:224-225 | building the file-to-package table succeeds exactly when no two packages share a file identifier; on success every package is found under its own file; on failure the error is `DuplicatePackage` for a file that really occurs twice |
| Resolver.Visit | src/JsBit/JsbBuilder.cs:196-222 | one visit keeps the order duplicate-free and dependencies-first, adds the visited package, leaves visited-minus-added (the traversal stack) as it found it, and never touches what the current root already visited; a circular error names a file that lies on a dependency cycle |
| Resolver.VisitDeps | src/JsBit/JsbBuilder.cs:209-217 | the dependency loop adds every declared dependency before returning; an unknown name fails with `UnresolvedDependency` naming the missing file and the package that declared it, and the missing file matches no package |
| Resolver.Push | src/JsBit/JsbBuilder.cs:204-207 | marking a fresh package with a dependency list visited pushes it on the traversal stack, keeps the traversal invariant, and shrinks the set of files still to visit |
| Resolver.Pop | src/JsBit/JsbBuilder.cs:220-221 | appending the package after its dependency loop pops it off the stack, so the whole visit adds nothing visited before it and leaves the stack as it was |
| Resolver.VisitAll | src/JsBit/JsbBuilder.cs:227-228 | visiting every package as a root, each with an empty `visited` set, adds every package of the project |
| Resolver.Resolve | src/JsBit/JsbBuilder.cs:189-231 | on success the order is a permutation of the packages with distinct files in which every dependency precedes its dependent; on failure the error is true of the input; duplicate file identifiers always give `DuplicatePackage` |
| Resolver.OrderIsPermutation | src/JsBit/JsbBuilder.cs:198 | with distinct file identifiers, an order that holds each package's file exactly once is a permutation of the packages (the `added` guard appends each package once) |
| Resolver.CycleOnPath | src/JsBit/JsbBuilder.cs:204-205 | meeting a file that is already on the traversal stack means that file lies on a dependency cycle |
| Resolver.EdgePointsBack | src/JsBit/JsbBuilder.cs:209-221 | in any valid build order, each dependency edge goes from a later package to an earlier one |
| Resolver.PathDescends | src/JsBit/JsbBuilder.cs:209-221 | along a dependency path, positions in a build order strictly decrease |
| Resolver.BuildOrderAcyclic | src/JsBit/JsbBuilder.cs:209-221 | a project that has a build order has no dependency cycle |
| Resolver.BuildOrderResolvable | src/JsBit/JsbBuilder.cs:209-216 | a project that has a build order declares only dependencies that name packages |
| Resolver.ResolveSucceedsIffWellFormed | src/JsBit/JsbBuilder.cs:189-231 | resolution succeeds if and only if file identifiers are distinct, every dependency names a package, and there is no cycle |
| Resolver.CycleFailsAsCircular | src/JsBit/JsbBuilder.cs:198-207 | with distinct identifiers and resolvable names, any cycle, including a self-dependency, makes resolution fail with a circular-dependency error for a file on a cycle |
| Resolver.SelfDependencyFails | src/JsBit/JsbBuilder.cs:204-205 | a package that depends on itself can never be resolved |
| Resolver.MissingReferenceFails | src/JsBit/JsbBuilder.cs:211-216 | a dependency naming no package can never be resolved |
| Resolver.VisitDepsAllAdded | src/JsBit/JsbBuilder.cs:209-217 | a dependency loop whose dependencies are all added already changes nothing |
| Resolver.RootInOrder | src/JsBit/JsbBuilder.cs:196-228 | in a dependencies-first declaration, the root at position `i` is appended as it is after the roots before it |
| Resolver.VisitAllKeepsOrder | src/JsBit/JsbBuilder.cs:227-228 | visiting the roots of a dependencies-first declaration in declared order yields exactly that order |
| Resolver.ResolveKeepsBuildOrder | src/JsBit/JsbBuilder.cs:189-231 | packages already declared dependencies-first with distinct identifiers resolve to their declared order |
| Resolver.ResolveKeepsIndependentOrder | src/JsBit/JsbBuilder.cs:227-228 | a project in which no package declares a dependency resolves to its declared order (once some package declares one, a package with no dependencies can come out ahead of one declared before it, when an earlier package needs it) |
| ResolverExamples.ChainHasBuildOrder | src/JsBit/JsbBuilder.cs:209-221 | a, b, c is a build order of the chain declared as c, a, b (c needs b, b needs a) |
| ResolverExamples.ChainOrderIsUnique | src/JsBit/JsbBuilder.cs:209-221 | a, b, c is the only build order of that chain |
| ResolverExamples.ChainResolvesInDependencyOrder | src/JsBit/JsbBuilder.cs:189-231 | the chain declared as c, a, b resolves to exactly a, b, c |
| ResolverExamples.MutualDependencyIsCircular | src/JsBit/JsbBuilder.cs:204-205 | two packages that need each other fail with a circular-dependency error naming one of them |
| ResolverExamples.MissingDependencyIsUnresolved | src/JsBit/JsbBuilder.cs:215-216 | a dependency on an absent file fails with exactly `UnresolvedDependency("missing.js", "z.js")` |
| Text.Split | src/JsBit/JsbBuilder.cs:178 | splitting on a character gives at least one part, no part contains the separator, and joining the parts with it gives back the string |
| Text.SplitJoin | src/JsBit/JsbBuilder.cs:178 | splitting undoes joining whenever no part contains the separator |
| Text.TrimEnd | src/JsBit/JsbBuilder.cs:184 | trimming gives a prefix, removes only copies of the character, and leaves a result that does not end in it |
| Text.LinesSnoc | src/JsBit/JsbBuilder.cs:180-186 | one more `WriteLine` appends the line and a line terminator to what was written |
| Text.SplitLines | src/JsBit/JsbBuilder.cs:180-186 | text written line by line splits back into its lines and a final empty part |
| Text.Lower | src/JsBit/JsbBuilder.cs:160 | lower-casing keeps the length, leaves no ASCII capital, keeps every other character, and turns each capital into the small letter at the same place in the alphabet |
| Paths.LastIndexOf | src/JsBit/JsbBuilder.cs:93-97 | the index found holds the character and no later position does; -1 means it does not occur |
| Paths.FileName | src/JsBit/JsbBuilder.cs:97 | a file name never contains a separator |
| Paths.StemAndExtension | src/JsBit/JsbBuilder.cs:93-97 | a file name is its stem followed by its extension, except that a trailing dot belongs to neither |
| Paths.DirectoryAndFileName | src/JsBit/JsbBuilder.cs:96-97 | a path is its directory, a separator and its file name; a path directly under the root is "/" and its file name; a path without separator has directory "" and is its own file name |
| Paths.FileNameOfCombine | src/JsBit/JsbBuilder.cs:94-97 | combining a directory in front never changes the file name of a non-empty path, and combining with an empty path gives back the directory |
| Paths.DebugFileNameShape | src/JsBit/JsbBuilder.cs:95-98 | for a non-empty identifier the debug file name is its stem, "-debug", then its extension, and is at least five characters longer than its file name; for an empty identifier it is the deploy path's stem with "-debug"; it has no separator and always differs from the minified path's file name; for an empty identifier the code itself then fails, because the minified path is the deploy directory and writing it at :173 throws |
| Paths.StemDebugDiffers | src/JsBit/JsbBuilder.cs:97 | putting "-debug" after the stem of a name never gives back the name |
| Paths.DebugPath | src/JsBit/JsbBuilder.cs:93-98 | the debug path never coincides with the minified path, is strictly longer for a non-empty identifier, and its file name is the debug file name |
| Paths.CombineParts | src/JsBit/JsbBuilder.cs:94 | a non-empty separator-free name joined onto a directory splits back into that directory and that name |
| Paths.StemExtensionParts | src/JsBit/JsbBuilder.cs:93-97 | a dot-free stem followed by a one-dot extension splits back into that stem and that extension |
| Paths.PlainDebugFileName | src/JsBit/JsbBuilder.cs:97 | the identifier `stem.ext` gets the debug file name `stem-debug.ext` |
| Paths.DebugPathInDeploy | src/JsBit/JsbBuilder.cs:95-98 | the debug output of a non-empty separator-free identifier sits directly in the deploy directory |
| Paths.PlainOutputPaths | src/JsBit/JsbBuilder.cs:93-98 | for `stem.ext` under `deploy`, the minified output is `deploy/stem.ext` and the debug output is `deploy/stem-debug.ext` |
| Assembly.KindOfIsScriptExactlyForJs | src/JsBit/JsbBuilder.cs:160-169 | script minification is chosen exactly when the extension is ".js" in some letter case; every other extension, including none, gets stylesheet minification |
| Assembly.WriteLicense | src/JsBit/JsbBuilder.cs:176-187 | the writer gains "/*", one comment line per newline-separated segment of the license, then "*/", each terminated |
| Assembly.LicenseLinesWithoutNewline | src/JsBit/JsbBuilder.cs:178-185 | no line of the license comment contains a newline |
| Assembly.LicenseBlockLayout | src/JsBit/JsbBuilder.cs:109-110 | the license block, split at line breaks, is "/*", the comment lines, "*/" and nothing after the last break |
| Assembly.LicenseRecoverable | src/JsBit/JsbBuilder.cs:176-187 | without carriage returns, removing " *" from the inner comment lines and joining them with newlines gives back the license |
| Assembly.FirstAbsent | src/JsBit/JsbBuilder.cs:118-149 | there is no first missing path exactly when every path exists; a path it returns is missing while every earlier one exists |
| Assembly.FirstMissingUnique | src/JsBit/JsbBuilder.cs:118-149 | a missing path with every earlier path present is the one `FirstAbsent` finds, so the first missing path is unique |
| Assembly.ContentsSnoc | src/JsBit/JsbBuilder.cs:132 | reading one more present file extends the text by its contents and a line terminator |
| Assembly.AppendFiles | src/JsBit/JsbBuilder.cs:118-149 | the read loop succeeds exactly when every path exists, and then appends each file's contents on its own line; otherwise it fails on the first missing path, with the loop's role |
| Assembly.PackageStep | src/JsBit/JsbBuilder.cs:89-174 | one package build as a value: it succeeds exactly when every inlined debug output and every include exists and then writes the two outputs; otherwise it leaves the file system alone and names the first missing input |
| Assembly.PackageStepOutcome | src/JsBit/JsbBuilder.cs:155-172 | a successful package step adds exactly its debug and minified paths, the minified path holds the minification of the text at the debug path, and every other file keeps its contents |
| Assembly.BuildPackage | src/JsBit/JsbBuilder.cs:89-174 | its outcome is exactly `PackageStep`: it succeeds exactly when every inlined debug output and every include exists; the debug path then holds the license block, dependency texts and include texts, and the minified path holds the minification of exactly that text, by the kind of the extension; only those two paths change; a failure names the first missing input and writes nothing |
| AssemblyExamples.CssIsStylesheet | src/JsBit/JsbBuilder.cs:160-169 | `site.css` gets stylesheet minification |
| AssemblyExamples.UpperCaseJsIsScript | src/JsBit/JsbBuilder.cs:160-169 | `lib/APP.JS` gets script minification |
| AssemblyExamples.MitLicenseBlock | src/JsBit/JsbBuilder.cs:176-187 | the license "MIT" becomes "/*", " *MIT", "*/" on three lines |
| AssemblyExamples.IncludePathUnderSource | src/JsBit/JsbBuilder.cs:143 | include `src`/`a.js` under source `root` is read from `root/src/a.js` |
| AssemblyExamples.LicenseThenInclude | src/JsBit/JsbBuilder.cs:107-152 | license "MIT" and one include "var x=1;" give exactly the comment block followed by "var x=1;" on its own line |
| Builder.ApplyProjectOptions | src/JsBit/JsbBuilder.cs:233-241 | set options are kept; an unset destination is the current directory, an unset source the project file's directory, and an unset deploy path the project's deploy directory under the already-defaulted destination |
| Builder.ApplyProjectOptionsIdempotent | src/JsBit/JsbBuilder.cs:233-241 | applying the defaults to already-defaulted settings changes nothing |
| Builder.Built | src/JsBit/JsbBuilder.cs:40-43 | building an order package by package, stopping at the first failure, never removes a path, and without failure leaves both outputs of every package in place |
| Builder.BuiltStep | src/JsBit/JsbBuilder.cs:40-43 | building from position `i` is building package `i` and then, unless it failed, the rest |
| Builder.BuildPackages | src/JsBit/JsbBuilder.cs:40-43 | the loop's outcome is exactly `Built` over the order; a dependencies-first order never fails for a dependency file; on success every package's two outputs exist; only output paths change; if every include exists the loop succeeds |
| Builder.BuildOne | src/JsBit/JsbBuilder.cs:42 | one package build whose inlined dependency outputs all exist is `PackageStep`: it writes the package's outputs, or fails for an include without touching the file system |
| Builder.ProgressStep | src/JsBit/JsbBuilder.cs:40-43 | writing exactly the two outputs of the next package keeps the loop's account: earlier outputs exist, only outputs were added, other paths unchanged |
| Builder.Build | src/JsBit/JsbBuilder.cs:30-46 | a resolution error is returned with the file system untouched; otherwise the outcome is exactly `Built` over the resolved order with the defaulted settings; the build never fails for a missing dependency output; success means every package's two outputs exist; only output paths change; with resolution succeeding and every include present the build succeeds |
| Builder.SameOutputs | src/JsBit/JsbBuilder.cs:38-43 | a resolved order and the declared packages own the same output paths |
| Builder.DependenciesBuilt | src/JsBit/JsbBuilder.cs:123-130 | once the earlier packages of a dependencies-first order have written their debug outputs, every debug path the next package inlines exists, since producer and consumer derive the path the same way |

## Left out

- `CopyProjectResources` (src/JsBit/JsbBuilder.cs:53-87): regular-expression matching over a
  directory listing, hidden-file attributes and file copies. It has no part in package
  building, so `Builder.Build` ends after the last package.
- `JsbProject.Open` and the JSON mapping: the project value is taken as given.
- `JsBit.ConsoleApplication/Program.cs`: command-line parsing and process exit.
- The minifier library and its settings: the minifier is the parameter
  `minify(kind, text)`. Minifier errors are not modelled.
- Console logging, the output encoding, and `Directory.CreateDirectory`. Creating a
  directory is a no-op in a file system that is a map of paths.
- `Environment.CurrentDirectory`: it is the `currentDirectory` parameter of
  `Builder.ApplyProjectOptions` and `Builder.Build`.
- `Build(project)` with null options: this is `Build` with every option unset.
- `Path.Combine` with a rooted right operand, and backslash separators: paths use `/` only.
- `GetDirectoryName` of the root path "/" itself is null in .NET; the model returns "/".
  .NET's path normalisation of runs of separators (`a//b`) is not modelled.
- Null `Include.Path`, `Include.Text` or `project.Path`: strings are never null in the
  model. The code passes the first two to `Path.Combine` (src/JsBit/JsbBuilder.cs:141,
  143), which throws on null, and the third to `GetDirectoryName`
  (src/JsBit/JsbBuilder.cs:238), which returns null.
- `ToLowerInvariant` lower-cases only ASCII letters. That is enough to decide whether an
  extension is ".js".
- `Environment.NewLine` is fixed to "\n".
- Null `File`, `Includes`, `Packages` or `DeployDir` values are not modelled. The code
  dereferences them unguarded.
- `IsDebug` fields are never read by the engine.
- `Resources` is only read by `CopyProjectResources`.
- Writes never fail and there are no directories. In the code, a write to a path that was
  created as a directory throws. This happens for an empty `File`, whose minified path is
  the deploy directory (src/JsBit/JsbBuilder.cs:36, 94, 173). Creating a directory over
  an existing file also throws (:102), as for a package `a.js` followed by `a.js/b.js`.
  The model's map file system makes both writes succeed, so `Builder.Build`'s success and
  frame clauses hold for the map, not for every disk.
- Distinct strings are distinct files: no case folding, no `.`/`..` and no
  relative/absolute aliasing. On a case-insensitive disk `App.js` and `app.js` write the
  same files; the model keeps them apart.
- Rebuilding twice is not proved to give identical outputs. An include path may coincide
  with an output path of the same or a later package; the second build then reads what
  the first build wrote there.
- Resolver.MissingReferenceFails: it states only that resolution fails. When a cycle or
  another bad name is met first, the error the code reports is for that other problem.
  `Resolver.Resolve` states that an `UnresolvedDependency` error always names a missing
  file and the package that declared it.
- Resolver.CycleFailsAsCircular: it requires resolvable names for the same reason. An
  unknown name met before the cycle is reported instead.

=== FILE: assembly.dfy ===
/** Package assembly: the debug text of one package (license comment, inlined debug
    outputs of its dependencies, its own includes) and the two files written for it. */
module Assembly {
  import opened Wrappers
  import opened Model
  import opened Paths
  import opened Text

  /** The file system: path to contents. A path that is not a key does not exist. */
  type FileSystem = map<string, string>

  /** The two minifiers: JavaScript and CSS. */
  datatype Kind = Script | Stylesheet

  /** The minifier is chosen from the extension of the file identifier alone. */
  function KindOf(file: string): Kind
  {
    if Lower(Extension(file)) == ".js" then Script else Stylesheet
  }

  /** ".js" in any mix of letter cases. */
  predicate IsScriptExtension(e: string)
  {
    && |e| == 3
    && e[0] == '.'
    && (e[1] == 'j' || e[1] == 'J')
    && (e[2] == 's' || e[2] == 'S')
  }

  /** Script minification is chosen exactly for the extensions ".js", ".JS", ".Js" and
      ".jS"; every other extension, none included, gets stylesheet minification. */
  lemma KindOfIsScriptExactlyForJs(file: string)
    ensures KindOf(file) == Script <==> IsScriptExtension(Extension(file))
  {
    var e := Extension(file);
    var l := Lower(e);
    if |e| == 3 {
      assert l == ".js" <==> l[0] == '.' && l[1] == 'j' && l[2] == 's';
    }
  }

  // ---------------------------------------------------------------------------
  // The license comment
  // ---------------------------------------------------------------------------

  /** One license line: " *" and the segment without trailing carriage returns. */
  function CommentLine(segment: string): string
  {
    " *" + TrimEnd(segment, '\r')
  }

  function CommentLines(segments: seq<string>): (ls: seq<string>)
    ensures |ls| == |segments|
    ensures forall i :: 0 <= i < |segments| ==> ls[i] == CommentLine(segments[i])
  {
    seq(|segments|, i requires 0 <= i < |segments| => CommentLine(segments[i]))
  }

  /** The lines of the license comment: "/*", one line per newline-separated segment of
      the license, and "*/". */
  function LicenseLines(license: string): seq<string>
  {
    ["/*"] + CommentLines(Split(license, '\n')) + ["*/"]
  }

  /** What the assembly writes for the project's license: nothing for a null or empty
      license, otherwise the license comment. */
  function LicenseBlock(license: Option<string>): string
  {
    match license
    case None => ""
    case Some(l) => if l == "" then "" else Lines(LicenseLines(l))
  }

  /** `WriteLicense`: appends the license comment to the writer's text line by line. */
  method WriteLicense(license: string, writer: string) returns (w: string)
    ensures w == writer + Lines(LicenseLines(license))
  {
    var segments := Split(license, '\n');
    w := writer + "/*" + NewLine;
    var i := 0;
    while i < |segments|
      invariant 0 <= i <= |segments|
      invariant w == writer + Lines(["/*"] + CommentLines(segments[..i]))
    {
      LicensePrefixSnoc(writer, segments, i);
      w := w + " *" + TrimEnd(segments[i], '\r') + NewLine;
      i := i + 1;
    }
    assert segments[..i] == segments;
    LinesSnoc(["/*"] + CommentLines(segments), "*/");
    w := w + "*/" + NewLine;
  }

  /** One more segment adds its comment line to the text of the license written so far. */
  lemma LicensePrefixSnoc(writer: string, segments: seq<string>, i: nat)
    requires i < |segments|
    ensures writer + Lines(["/*"] + CommentLines(segments[..i + 1]))
      == writer + Lines(["/*"] + CommentLines(segments[..i])) + " *" + TrimEnd(segments[i], '\r') + NewLine
  {
    var line := CommentLine(segments[i]);
    var before := ["/*"] + CommentLines(segments[..i]);
    assert ["/*"] + CommentLines(segments[..i + 1]) == before + [line];
    LinesSnoc(before, line);
  }

  /** No line of the license comment contains a newline. */
  lemma LicenseLinesWithoutNewline(license: string)
    ensures forall i :: 0 <= i < |LicenseLines(license)| ==> '\n' !in LicenseLines(license)[i]
  {
    var segments := Split(license, '\n');
    var ls := LicenseLines(license);
    forall i | 0 <= i < |ls| ensures '\n' !in ls[i] {
      if 0 < i < |ls| - 1 {
        var seg := segments[i - 1];
        var t := TrimEnd(seg, '\r');
        assert ls[i] == " *" + t;
        assert forall k :: 0 <= k < |t| ==> t[k] == seg[k];
      }
    }
  }

  /** The license block read back line by line: "/*", " *" followed by each segment of
      the license with trailing carriage returns removed, "*/", and nothing after the
      final line break. */
  lemma LicenseBlockLayout(license: string)
    requires license != ""
    ensures Split(LicenseBlock(Some(license)), '\n')
      == ["/*"] + CommentLines(Split(license, '\n')) + ["*/", ""]
  {
    LicenseLinesWithoutNewline(license);
    SplitLines(LicenseLines(license));
  }

  /** Without carriage returns in it, the license is recovered from its comment block:
      drop the " *" of each inner line and join them with newlines. */
  lemma LicenseRecoverable(license: string)
    requires '\r' !in license
    ensures var inner := CommentLines(Split(license, '\n'));
      Join(seq(|inner|, i requires 0 <= i < |inner| => inner[i][2..]), '\n') == license
  {
    var segments := Split(license, '\n');
    var inner := CommentLines(segments);
    var stripped := seq(|inner|, i requires 0 <= i < |inner| => inner[i][2..]);
    forall i | 0 <= i < |segments| ensures stripped[i] == segments[i] {
      forall k | 0 <= k < |segments[i]| ensures segments[i][k] != '\r' {
        JoinContains(segments, '\n', i, k);
      }
      TrimEndWithoutChar(segments[i], '\r');
    }
    assert stripped == segments;
  }

  /** Trimming a character the string does not contain changes nothing. */
  lemma TrimEndWithoutChar(s: string, c: char)
    requires forall k :: 0 <= k < |s| ==> s[k] != c
    ensures TrimEnd(s, c) == s
  {
    var r := TrimEnd(s, c);
    assert r == s[..|r|];
  }

  /** Every character of every part is a character of the joined text. */
  lemma {:induction false} JoinContains(parts: seq<string>, sep: char, i: nat, k: nat)
    requires |parts| >= 1 && i < |parts| && k < |parts[i]|
    ensures parts[i][k] in Join(parts, sep)
    decreases |parts|
  {
    if |parts| > 1 {
      var rest := Join(parts[1..], sep);
      assert Join(parts, sep) == parts[0] + [sep] + rest;
      if i == 0 {
        assert Join(parts, sep)[k] == parts[0][k];
      } else {
        JoinContains(parts[1..], sep, i - 1, k);
        var m :| 0 <= m < |rest| && rest[m] == parts[i][k];
        assert Join(parts, sep)[|parts[0]| + 1 + m] == rest[m];
      }
    }
  }

  // ---------------------------------------------------------------------------
  // Reading inputs
  // ---------------------------------------------------------------------------

  predicate AllPresent(fs: FileSystem, paths: seq<string>)
  {
    forall i :: 0 <= i < |paths| ==> paths[i] in fs
  }

  /** `path` is the first of `paths` that does not exist. */
  ghost predicate FirstMissing(fs: FileSystem, paths: seq<string>, path: string)
  {
    exists i :: 0 <= i < |paths| && paths[i] == path && path !in fs && AllPresent(fs, paths[..i])
  }

  /** The first of `paths` that does not exist, if any. */
  function FirstAbsent(fs: FileSystem, paths: seq<string>): (r: Option<string>)
    ensures r.None? <==> AllPresent(fs, paths)
    ensures r.Some? ==> FirstMissing(fs, paths, r.value)
    decreases |paths|
  {
    if paths == [] then None
    else if paths[0] !in fs then
      assert paths[..0] == [];
      Some(paths[0])
    else
      var r := FirstAbsent(fs, paths[1..]);
      assert AllPresent(fs, paths[1..]) ==> AllPresent(fs, paths) by {
        if AllPresent(fs, paths[1..]) {
          forall i | 0 <= i < |paths| ensures paths[i] in fs {
            if i > 0 { assert paths[i] == paths[1..][i - 1]; }
          }
        }
      }
      if r.Some? then
        MissingAfterPresent(fs, paths, r.value);
        r
      else r
  }

  /** A first missing path after a present first path is the first missing path of the
      whole sequence. */
  lemma MissingAfterPresent(fs: FileSystem, paths: seq<string>, path: string)
    requires |paths| > 0 && paths[0] in fs && FirstMissing(fs, paths[1..], path)
    ensures FirstMissing(fs, paths, path) && !AllPresent(fs, paths)
  {
    var i :| 0 <= i < |paths| - 1 && paths[1..][i] == path && path !in fs && AllPresent(fs, paths[1..][..i]);
    assert paths[..i + 1] == [paths[0]] + paths[1..][..i];
    assert paths[i + 1] == path;
  }

  /** There is only one first missing path: `FirstAbsent` finds it. */
  lemma FirstMissingUnique(fs: FileSystem, paths: seq<string>, path: string)
    requires FirstMissing(fs, paths, path)
    ensures FirstAbsent(fs, paths) == Some(path)
  {
    var i :| 0 <= i < |paths| && paths[i] == path && path !in fs && AllPresent(fs, paths[..i]);
    var other := FirstAbsent(fs, paths).value;
    var j :| 0 <= j < |paths| && paths[j] == other && other !in fs && AllPresent(fs, paths[..j]);
    if i < j {
      PresentBefore(fs, paths, j, i);
    } else if j < i {
      PresentBefore(fs, paths, i, j);
    }
  }

  lemma PresentBefore(fs: FileSystem, paths: seq<string>, k: nat, m: nat)
    requires m < k <= |paths| && AllPresent(fs, paths[..k])
    ensures paths[m] in fs
  {
    assert paths[..k][m] == paths[m];
  }

  /** The contents of each path, in order. */
  function Contents(fs: FileSystem, paths: seq<string>): (cs: seq<string>)
    requires AllPresent(fs, paths)
    ensures |cs| == |paths|
    ensures forall i :: 0 <= i < |paths| ==> cs[i] == fs[paths[i]]
  {
    seq(|paths|, i requires 0 <= i < |paths| => fs[paths[i]])
  }

  /** Where the debug outputs of the inlined dependencies are read: one per declared
      dependency when the package inlines them and declares a list, none otherwise. */
  function DependencyPaths(deploy: string, p: Package): (r: seq<string>)
    ensures |r| == if p.includeDependencies then |DepsOf(p)| else 0
    ensures forall i :: 0 <= i < |r| ==> r[i] == DebugPath(deploy, DepsOf(p)[i])
  {
    if p.includeDependencies && p.dependencies.Some? then
      var ds := p.dependencies.value;
      seq(|ds|, i requires 0 <= i < |ds| => DebugPath(deploy, ds[i]))
    else []
  }

  /** Where an include is read: its directory and file name under the source path. */
  function IncludePath(source: string, inc: Include): string
  {
    Combine(source, Combine(inc.path, inc.text))
  }

  function IncludePaths(source: string, p: Package): (r: seq<string>)
    ensures |r| == |p.includes|
    ensures forall i :: 0 <= i < |r| ==> r[i] == IncludePath(source, p.includes[i])
  {
    seq(|p.includes|, i requires 0 <= i < |p.includes| => IncludePath(source, p.includes[i]))
  }

  /** The debug text of a package: the license block, each inlined dependency's debug
      output on its own line in declared order, then each include likewise. */
  function DebugText(license: Option<string>, fs: FileSystem, deps: seq<string>, incs: seq<string>): string
    requires AllPresent(fs, deps) && AllPresent(fs, incs)
  {
    LicenseBlock(license) + Lines(Contents(fs, deps)) + Lines(Contents(fs, incs))
  }

  /** Reading one more present path extends the contents read so far by its contents. */
  lemma ContentsSnoc(fs: FileSystem, paths: seq<string>, i: nat)
    requires i < |paths| && AllPresent(fs, paths[..i]) && paths[i] in fs
    ensures AllPresent(fs, paths[..i + 1])
    ensures Lines(Contents(fs, paths[..i + 1])) == Lines(Contents(fs, paths[..i])) + fs[paths[i]] + NewLine
  {
    assert Contents(fs, paths[..i + 1]) == Contents(fs, paths[..i]) + [fs[paths[i]]];
    LinesSnoc(Contents(fs, paths[..i]), fs[paths[i]]);
  }

  /** The expected outcome of building a package when every input is present. */
  ghost predicate PackageWritten(license: Option<string>, p: Package, s: Settings, fs: FileSystem,
                                 minify: (Kind, string) -> string, fs': FileSystem)
  {
    var deps := DependencyPaths(s.deployPath, p);
    var incs := IncludePaths(s.sourcePath, p);
    && AllPresent(fs, deps) && AllPresent(fs, incs)
    && var debug := DebugText(license, fs, deps, incs);
       fs' == fs[DebugPath(s.deployPath, p.file) := debug]
                [MinifiedPath(s.deployPath, p.file) := minify(KindOf(p.file), debug)]
  }

  /** The error a package build stops with names the first input it could not read:
      a dependency's debug output, or, when all of those exist, an include. */
  ghost predicate ExplainsFailure(p: Package, s: Settings, fs: FileSystem, e: BuildError)
  {
    var deps := DependencyPaths(s.deployPath, p);
    var incs := IncludePaths(s.sourcePath, p);
    match e
    case MissingFile(DependencyFile, path) => FirstMissing(fs, deps, path)
    case MissingFile(IncludeFile, path) => AllPresent(fs, deps) && FirstMissing(fs, incs, path)
    case _ => false
  }

  /** One package build as a value: the file system after it and the error it stops
      with. It fails on the first missing dependency output, else on the first missing
      include, leaving the file system alone; otherwise it writes the debug text and
      its minification. */
  function PackageStep(license: Option<string>, p: Package, s: Settings, fs: FileSystem,
                       minify: (Kind, string) -> string): (r: (FileSystem, Option<BuildError>))
    ensures r.1.None? <==>
      (AllPresent(fs, DependencyPaths(s.deployPath, p)) && AllPresent(fs, IncludePaths(s.sourcePath, p)))
    ensures r.1.None? ==> PackageWritten(license, p, s, fs, minify, r.0)
    ensures r.1.Some? ==> r.0 == fs && ExplainsFailure(p, s, fs, r.1.value)
  {
    var deps := DependencyPaths(s.deployPath, p);
    var incs := IncludePaths(s.sourcePath, p);
    match FirstAbsent(fs, deps)
    case Some(path) => (fs, Some(MissingFile(DependencyFile, path)))
    case None =>
      match FirstAbsent(fs, incs)
      case Some(path) => (fs, Some(MissingFile(IncludeFile, path)))
      case None =>
        var debug := DebugText(license, fs, deps, incs);
        (fs[DebugPath(s.deployPath, p.file) := debug]
           [MinifiedPath(s.deployPath, p.file) := minify(KindOf(p.file), debug)], None)
  }

  /** The read loops of the assembly: appends the contents of each path in turn, each
      on its own line, and stops at the first path that does not exist. */
  method AppendFiles(fs: FileSystem, paths: seq<string>, role: FileRole, writer: string)
    returns (w: string, err: Option<BuildError>)
    ensures err.None? <==> AllPresent(fs, paths)
    ensures err.None? ==> w == writer + Lines(Contents(fs, paths))
    ensures err.Some? ==> err.value.MissingFile? && err.value.role == role && FirstMissing(fs, paths, err.value.path)
  {
    w := writer;
    var i := 0;
    assert paths[..0] == [];
    while i < |paths|
      invariant 0 <= i <= |paths|
      invariant AllPresent(fs, paths[..i])
      invariant w == writer + Lines(Contents(fs, paths[..i]))
    {
      var path := paths[i];
      if path !in fs {
        assert FirstMissing(fs, paths, path);
        return w, Some(MissingFile(role, path));
      }
      ContentsSnoc(fs, paths, i);
      w := w + fs[path] + NewLine;
      i := i + 1;
    }
    assert paths[..i] == paths;
    err := None;
  }

  /** When every inlined dependency output exists, only an include can be missing. */
  lemma OnlyIncludeMissing(p: Package, s: Settings, fs: FileSystem, e: BuildError)
    requires ExplainsFailure(p, s, fs, e) && AllPresent(fs, DependencyPaths(s.deployPath, p))
    ensures e.MissingFile? && e.role == IncludeFile && !AllPresent(fs, IncludePaths(s.sourcePath, p))
  {
  }

  /** `BuildPackage`: assembles the debug text, writes it to the debug path, then writes
      its minification, chosen by the file extension, to the minified path. A missing
      input stops the build before either file is written. */
  method BuildPackage(license: Option<string>, p: Package, s: Settings, fs: FileSystem,
                      minify: (Kind, string) -> string)
    returns (fs': FileSystem, err: Option<BuildError>)
    ensures err.None? <==>
      (AllPresent(fs, DependencyPaths(s.deployPath, p)) && AllPresent(fs, IncludePaths(s.sourcePath, p)))
    ensures err.None? ==> PackageWritten(license, p, s, fs, minify, fs')
    ensures err.None? ==> fs'[MinifiedPath(s.deployPath, p.file)]
                            == minify(KindOf(p.file), fs'[DebugPath(s.deployPath, p.file)])
    ensures err.Some? ==> fs' == fs && ExplainsFailure(p, s, fs, err.value)
    ensures err.None? ==>
      fs'.Keys == fs.Keys + {MinifiedPath(s.deployPath, p.file), DebugPath(s.deployPath, p.file)}
    ensures forall path :: path in fs && path !in {MinifiedPath(s.deployPath, p.file), DebugPath(s.deployPath, p.file)}
                           ==> fs'[path] == fs[path]
    ensures (fs', err) == PackageStep(license, p, s, fs, minify)
  {
    var writer := "";
    if license.Some? && license.value != "" {
      writer := WriteLicense(license.value, writer);
    }
    assert writer == LicenseBlock(license);
    var deps := DependencyPaths(s.deployPath, p);
    var incs := IncludePaths(s.sourcePath, p);
    var e: Option<BuildError>;
    writer, e := AppendFiles(fs, deps, DependencyFile, writer);
    if e.Some? {
      FirstMissingUnique(fs, deps, e.value.path);
      fs', err := fs, e;
    } else {
      writer, e := AppendFiles(fs, incs, IncludeFile, writer);
      if e.Some? {
        FirstMissingUnique(fs, incs, e.value.path);
        fs', err := fs, e;
      } else {
        var debugContent := writer;
        fs' := fs[DebugPath(s.deployPath, p.file) := debugContent];
        fs' := fs'[MinifiedPath(s.deployPath, p.file) := minify(KindOf(p.file), debugContent)];
        err := None;
      }
    }
    PackageStepOutcome(license, p, s, fs, minify);
  }

  /** A successful package step adds exactly its two output paths, stores the minification
      of the debug text it wrote, and leaves every other file as it was. */
  lemma PackageStepOutcome(license: Option<string>, p: Package, s: Settings, fs: FileSystem,
                           minify: (Kind, string) -> string)
    ensures var r := PackageStep(license, p, s, fs, minify);
      && (r.1.None? ==>
            && r.0.Keys == fs.Keys + {MinifiedPath(s.deployPath, p.file), DebugPath(s.deployPath, p.file)}
            && r.0[MinifiedPath(s.deployPath, p.file)]
               == minify(KindOf(p.file), r.0[DebugPath(s.deployPath, p.file)]))
      && forall path :: path in fs && path !in {MinifiedPath(s.deployPath, p.file), DebugPath(s.deployPath, p.file)}
                        ==> r.0[path] == fs[path]
  {
    var r := PackageStep(license, p, s, fs, minify);
    if r.1.None? {
      var deps := DependencyPaths(s.deployPath, p);
      var incs := IncludePaths(s.sourcePath, p);
      var debug := DebugText(license, fs, deps, incs);
      TwoWrites(fs, DebugPath(s.deployPath, p.file), MinifiedPath(s.deployPath, p.file),
                debug, minify(KindOf(p.file), debug));
    }
  }

  /** Writing two different paths adds both and changes nothing else. */
  lemma TwoWrites(fs: FileSystem, debugPath: string, minifiedPath: string, debug: string, minified: string)
    requires debugPath != minifiedPath
    ensures var fs' := fs[debugPath := debug][minifiedPath := minified];
      && fs'.Keys == fs.Keys + {minifiedPath, debugPath}
      && fs'[debugPath] == debug && fs'[minifiedPath] == minified
      && forall path :: path in fs && path !in {minifiedPath, debugPath} ==> fs'[path] == fs[path]
  {
  }
}

=== FILE: assembly_examples.dfy ===
/** Small inputs whose minifier kind, read paths and debug text are worked out in full. */
module AssemblyExamples {
  import opened Wrappers
  import opened Model
  import opened Paths
  import opened Text
  import opened Assembly

  /** A ".css" package is minified as a stylesheet. */
  lemma CssIsStylesheet()
    ensures KindOf("site.css") == Stylesheet
  {
    LastIndexOfAt("site.css", '/', -1);
    LastIndexOfAt("site.css", '.', 4);
    assert Extension("site.css") == ".css";
  }

  /** An upper-case ".JS" package in a subdirectory is minified as a script. */
  lemma UpperCaseJsIsScript()
    ensures KindOf("lib/APP.JS") == Script
  {
    LastIndexOfAt("lib/APP.JS", '/', 3);
    assert FileName("lib/APP.JS") == "APP.JS";
    LastIndexOfAt("APP.JS", '.', 3);
    assert Extension("lib/APP.JS") == ".JS";
  }

  /** The license "MIT" becomes a three-line comment. */
  lemma MitLicenseBlock()
    ensures LicenseBlock(Some("MIT")) == "/*\n *MIT\n*/\n"
  {
    SplitWithoutSeparator("MIT", '\n');
    assert TrimEnd("MIT", '\r') == "MIT";
    var cl := CommentLines(["MIT"]);
    assert |cl| == 1 && cl[0] == " *MIT";
    assert cl == [" *MIT"];
    assert LicenseLines("MIT") == ["/*", " *MIT", "*/"];
  }

  /** An include's directory and file name are joined under the source path. */
  lemma IncludePathUnderSource(p: Package)
    requires p == Package("app", "app.js", true, [Include("src", "a.js")], None)
    ensures IncludePaths("root", p) == ["root/src/a.js"]
  {
    assert Combine("src", "a.js") == "src/a.js";
    assert Combine("root", "src/a.js") == "root/src/a.js";
  }

  /** License "MIT", no dependencies and one include holding "var x=1;": the comment
      block, then the include on its own line. */
  lemma LicenseThenInclude(fs: FileSystem)
    requires fs == map["root/src/a.js" := "var x=1;"]
    ensures AllPresent(fs, []) && AllPresent(fs, ["root/src/a.js"])
    ensures DebugText(Some("MIT"), fs, [], ["root/src/a.js"]) == "/*\n *MIT\n*/\nvar x=1;\n"
  {
    MitLicenseBlock();
    IncludeRead(fs);
    assert Contents(fs, []) == [];
    assert "/*\n *MIT\n*/\n" + "" + "var x=1;\n" == "/*\n *MIT\n*/\nvar x=1;\n";
  }

  /** The one include is read and written on its own line. */
  lemma IncludeRead(fs: FileSystem)
    requires fs == map["root/src/a.js" := "var x=1;"]
    ensures AllPresent(fs, ["root/src/a.js"])
    ensures Lines(Contents(fs, ["root/src/a.js"])) == "var x=1;\n"
  {
    assert Contents(fs, ["root/src/a.js"]) == ["var x=1;"];
    assert Lines(["var x=1;"]) == "var x=1;\n";
  }
}

=== FILE: builder.dfy ===
/** The build driver: option defaults, then resolution, then one package build per
    package in resolved order, threading the file system through. */
module Builder {
  import opened Wrappers
  import opened Model
  import opened Paths
  import opened Resolver
  import opened Assembly

  /** A path option counts as set when it is neither null nor empty. */
  predicate IsSet(o: Option<string>)
  {
    o.Some? && o.value != ""
  }

  /** `ApplyProjectOptions`: unset paths get their defaults — the current directory for
      the destination, the project file's directory for the source, and the project's
      deploy directory under the (already defaulted) destination for the deploy path. */
  function ApplyProjectOptions(project: Project, options: BuildOptions, currentDirectory: string)
    : (r: Settings)
    ensures IsSet(options.destinationPath) ==> r.destinationPath == options.destinationPath.value
    ensures !IsSet(options.destinationPath) ==> r.destinationPath == currentDirectory
    ensures IsSet(options.sourcePath) ==> r.sourcePath == options.sourcePath.value
    ensures !IsSet(options.sourcePath) ==> r.sourcePath == DirectoryName(project.path)
    ensures IsSet(options.deployPath) ==> r.deployPath == options.deployPath.value
    ensures !IsSet(options.deployPath) ==> r.deployPath == Combine(r.destinationPath, project.deployDir)
  {
    var destination :=
      if IsSet(options.destinationPath) then options.destinationPath.value else currentDirectory;
    var source :=
      if IsSet(options.sourcePath) then options.sourcePath.value else DirectoryName(project.path);
    var deploy :=
      if IsSet(options.deployPath) then options.deployPath.value else Combine(destination, project.deployDir);
    Settings(source, deploy, destination)
  }

  /** The settings handed back as options. */
  function AsOptions(s: Settings): BuildOptions
  {
    BuildOptions(Some(s.sourcePath), Some(s.deployPath), Some(s.destinationPath))
  }

  /** Applying the defaults a second time, in the same directory, changes nothing. */
  lemma ApplyProjectOptionsIdempotent(project: Project, options: BuildOptions, currentDirectory: string)
    ensures var s := ApplyProjectOptions(project, options, currentDirectory);
      ApplyProjectOptions(project, AsOptions(s), currentDirectory) == s
  {
  }

  /** Every path a build of `ps` may write. */
  ghost function Outputs(deploy: string, ps: seq<Package>): set<string>
  {
    (set q | q in ps :: MinifiedPath(deploy, q.file)) + (set q | q in ps :: DebugPath(deploy, q.file))
  }

  /** Every include of every package exists. */
  ghost predicate IncludesPresent(fs: FileSystem, ps: seq<Package>, source: string)
  {
    forall q :: q in ps ==> AllPresent(fs, IncludePaths(source, q))
  }

  /** The build of `order` as one value: each package in turn, stopping at the first
      package that fails with the file system as it was before that package. Every
      path that existed still exists, and a build without error has written both
      outputs of every package. */
  function Built(license: Option<string>, order: seq<Package>, s: Settings, fs: FileSystem,
                 minify: (Kind, string) -> string): (r: (FileSystem, Option<BuildError>))
    ensures fs.Keys <= r.0.Keys
    ensures r.1.None? ==> forall q :: q in order ==>
      MinifiedPath(s.deployPath, q.file) in r.0 && DebugPath(s.deployPath, q.file) in r.0
    decreases |order|
  {
    if order == [] then (fs, None)
    else
      var step := PackageStep(license, order[0], s, fs, minify);
      if step.1.Some? then step
      else
        var rest := Built(license, order[1..], s, step.0, minify);
        assert forall q :: q in order ==> q == order[0] || q in order[1..];
        rest
  }

  /** Building the order from position `i` is building package `i`, then, unless it
      failed, the rest. */
  lemma BuiltStep(license: Option<string>, order: seq<Package>, i: nat, s: Settings, cur: FileSystem,
                  minify: (Kind, string) -> string)
    requires i < |order|
    ensures var step := PackageStep(license, order[i], s, cur, minify);
      Built(license, order[i..], s, cur, minify)
        == if step.1.Some? then step else Built(license, order[i + 1..], s, step.0, minify)
  {
    assert order[i..][0] == order[i] && order[i..][1..] == order[i + 1..];
  }

  /** The `foreach` over the resolved order: builds each package in turn and stops at
      the first error, keeping what was already written; the outcome is `Built`.
      Because every dependency comes earlier in the order, no package ever misses a
      dependency's debug output. */
  method BuildPackages(license: Option<string>, order: seq<Package>, s: Settings, fs: FileSystem,
                       minify: (Kind, string) -> string)
    returns (fs': FileSystem, err: Option<BuildError>)
    requires DependenciesFirst(order)
    ensures (fs', err) == Built(license, order, s, fs, minify)
    ensures err.Some? ==> err.value.MissingFile? && err.value.role == IncludeFile
    ensures err.None? ==> forall q :: q in order ==>
      MinifiedPath(s.deployPath, q.file) in fs' && DebugPath(s.deployPath, q.file) in fs'
    ensures fs.Keys <= fs'.Keys <= fs.Keys + Outputs(s.deployPath, order)
    ensures forall path :: path in fs && path !in Outputs(s.deployPath, order) ==> fs'[path] == fs[path]
    ensures (forall q :: q in order ==> AllPresent(fs, IncludePaths(s.sourcePath, q))) ==> err.None?
  {
    ghost var outputs := Outputs(s.deployPath, order);
    fs' := fs;
    var i := 0;
    while i < |order|
      invariant Progress(s.deployPath, order, i, fs, fs', outputs)
      invariant Built(license, order, s, fs, minify) == Built(license, order[i..], s, fs', minify)
    {
      var q := order[i];
      DependenciesBuilt(order, i, s.deployPath, fs');
      BuiltStep(license, order, i, s, fs', minify);
      var next, e := BuildOne(license, q, s, fs', minify);
      if e.Some? {
        IncludesStayPresent(fs, fs', order, i, s.sourcePath);
        return fs', e;
      }
      OwnOutputs(s.deployPath, order, i);
      ProgressStep(s.deployPath, order, i, fs, fs', next, outputs);
      fs' := next;
      i := i + 1;
    }
    ProgressDone(s.deployPath, order, fs, fs', outputs);
    err := None;
  }

  /** The loop's account of the file system after `i` packages: their outputs exist,
      every path that existed still does, only outputs were added, and every path
      outside the outputs holds what it held before the loop. */
  ghost predicate Progress(deploy: string, order: seq<Package>, i: nat, fs: FileSystem, cur: FileSystem,
                           outputs: set<string>)
  {
    && i <= |order|
    && (forall j :: 0 <= j < i ==>
          MinifiedPath(deploy, order[j].file) in cur && DebugPath(deploy, order[j].file) in cur)
    && fs.Keys <= cur.Keys <= fs.Keys + outputs
    && (forall path :: path in fs && path !in outputs ==> cur[path] == fs[path])
  }

  /** Writing the two outputs of package `i` and nothing else advances the account. */
  lemma ProgressStep(deploy: string, order: seq<Package>, i: nat, fs: FileSystem, cur: FileSystem,
                     next: FileSystem, outputs: set<string>)
    requires Progress(deploy, order, i, fs, cur, outputs) && i < |order|
    requires MinifiedPath(deploy, order[i].file) in outputs && DebugPath(deploy, order[i].file) in outputs
    requires next.Keys == cur.Keys + {MinifiedPath(deploy, order[i].file), DebugPath(deploy, order[i].file)}
    requires forall path :: path in cur && path !in {MinifiedPath(deploy, order[i].file), DebugPath(deploy, order[i].file)}
                            ==> next[path] == cur[path]
    ensures Progress(deploy, order, i + 1, fs, next, outputs)
  {
    var mini, debug := MinifiedPath(deploy, order[i].file), DebugPath(deploy, order[i].file);
    KeysStep(fs, cur, next, outputs, mini, debug);
    FrameStep(fs, cur, next, outputs, mini, debug);
    WrittenStep(deploy, order, i, cur, next);
  }

  /** Package `i` adds its outputs to those of the packages before it. */
  lemma WrittenStep(deploy: string, order: seq<Package>, i: nat, cur: FileSystem, next: FileSystem)
    requires i < |order| && cur.Keys <= next.Keys
    requires forall j :: 0 <= j < i ==>
      MinifiedPath(deploy, order[j].file) in cur && DebugPath(deploy, order[j].file) in cur
    requires MinifiedPath(deploy, order[i].file) in next && DebugPath(deploy, order[i].file) in next
    ensures forall j :: 0 <= j < i + 1 ==>
      MinifiedPath(deploy, order[j].file) in next && DebugPath(deploy, order[j].file) in next
  {
  }

  /** After the last package, every package's outputs exist. */
  lemma ProgressDone(deploy: string, order: seq<Package>, fs: FileSystem, cur: FileSystem,
                     outputs: set<string>)
    requires Progress(deploy, order, |order|, fs, cur, outputs)
    ensures forall q :: q in order ==> MinifiedPath(deploy, q.file) in cur && DebugPath(deploy, q.file) in cur
  {
    forall q | q in order ensures MinifiedPath(deploy, q.file) in cur && DebugPath(deploy, q.file) in cur {
      var j :| 0 <= j < |order| && order[j] == q;
    }
  }

  /** One iteration of the loop: `BuildPackage` for a package whose inlined dependency
      outputs all exist, so that only an include can be missing. */
  method BuildOne(license: Option<string>, q: Package, s: Settings, fs: FileSystem,
                  minify: (Kind, string) -> string)
    returns (fs': FileSystem, err: Option<BuildError>)
    requires AllPresent(fs, DependencyPaths(s.deployPath, q))
    ensures (fs', err) == PackageStep(license, q, s, fs, minify)
    ensures err.None? ==> PackageWritten(license, q, s, fs, minify, fs')
    ensures err.Some? ==> fs' == fs && ExplainsFailure(q, s, fs, err.value)
    ensures err.Some? ==> err.value.MissingFile? && err.value.role == IncludeFile
                          && !AllPresent(fs, IncludePaths(s.sourcePath, q))
    ensures err.None? ==>
      fs'.Keys == fs.Keys + {MinifiedPath(s.deployPath, q.file), DebugPath(s.deployPath, q.file)}
    ensures forall path :: path in fs && path !in {MinifiedPath(s.deployPath, q.file), DebugPath(s.deployPath, q.file)}
                           ==> fs'[path] == fs[path]
  {
    fs', err := BuildPackage(license, q, s, fs, minify);
    if err.Some? {
      OnlyIncludeMissing(q, s, fs, err.value);
    }
  }

  /** Writing two of the outputs keeps every existing path and adds only outputs. */
  lemma KeysStep(fs: FileSystem, cur: FileSystem, next: FileSystem, outputs: set<string>,
                 mini: string, debug: string)
    requires mini in outputs && debug in outputs
    requires fs.Keys <= cur.Keys <= fs.Keys + outputs
    requires next.Keys == cur.Keys + {mini, debug}
    ensures fs.Keys <= next.Keys <= fs.Keys + outputs
  {
  }

  /** Writing two of the outputs leaves every path outside the outputs as it was
      before the loop. */
  lemma FrameStep(fs: FileSystem, cur: FileSystem, next: FileSystem, outputs: set<string>,
                  mini: string, debug: string)
    requires mini in outputs && debug in outputs
    requires fs.Keys <= cur.Keys <= next.Keys
    requires forall path :: path in fs && path !in outputs ==> cur[path] == fs[path]
    requires forall path :: path in cur && path !in {mini, debug} ==> next[path] == cur[path]
    ensures forall path :: path in fs && path !in outputs ==> next[path] == fs[path]
  {
    forall path | path in fs && path !in outputs ensures next[path] == fs[path] {
      assert path in cur && path != mini && path != debug;
    }
  }

  /** Package `i` owns its two output paths. */
  lemma OwnOutputs(deploy: string, order: seq<Package>, i: nat)
    requires i < |order|
    ensures MinifiedPath(deploy, order[i].file) in Outputs(deploy, order)
    ensures DebugPath(deploy, order[i].file) in Outputs(deploy, order)
  {
    assert order[i] in order;
  }

  /** Includes that existed before the loop still exist at every package, since the
      loop only ever adds paths. */
  lemma IncludesStayPresent(fs: FileSystem, cur: FileSystem, order: seq<Package>, i: nat, source: string)
    requires i < |order| && fs.Keys <= cur.Keys
    ensures (forall r :: r in order ==> AllPresent(fs, IncludePaths(source, r))) ==>
      AllPresent(cur, IncludePaths(source, order[i]))
  {
    assert order[i] in order;
  }

  /** `Build`: defaults the options, resolves the order once, then builds each package
      in that order; the first error stops the build and keeps what was already written.
      A dependency's debug output is always present when a dependent inlines it, so the
      build never stops for a missing dependency file. */
  method Build(project: Project, options: BuildOptions, currentDirectory: string, fs: FileSystem,
               minify: (Kind, string) -> string)
    returns (fs': FileSystem, err: Option<BuildError>)
    ensures Resolve(project.packages).Failure? ==>
      fs' == fs && err == Some(Resolve(project.packages).error)
    ensures err.Some? ==> !(err.value.MissingFile? && err.value.role == DependencyFile)
    ensures var s := ApplyProjectOptions(project, options, currentDirectory);
      Resolve(project.packages).Success? ==>
        (fs', err) == Built(project.license, Resolve(project.packages).value, s, fs, minify)
    ensures var s := ApplyProjectOptions(project, options, currentDirectory);
      err.None? ==>
        && Resolve(project.packages).Success?
        && forall q :: q in project.packages ==>
             MinifiedPath(s.deployPath, q.file) in fs' && DebugPath(s.deployPath, q.file) in fs'
    ensures var s := ApplyProjectOptions(project, options, currentDirectory);
      && fs'.Keys <= fs.Keys + Outputs(s.deployPath, project.packages)
      && forall path :: path in fs && path !in Outputs(s.deployPath, project.packages) ==>
           path in fs' && fs'[path] == fs[path]
    ensures var s := ApplyProjectOptions(project, options, currentDirectory);
      Resolve(project.packages).Success? && IncludesPresent(fs, project.packages, s.sourcePath) ==>
        err.None?
  {
    var s := ApplyProjectOptions(project, options, currentDirectory);
    var resolved := Resolve(project.packages);
    if resolved.Failure? {
      return fs, Some(resolved.error);
    }
    var order := resolved.value;
    SameOutputs(s.deployPath, order, project.packages);
    fs', err := BuildPackages(project.license, order, s, fs, minify);
  }

  /** A build order writes exactly the paths its project's packages own. */
  lemma SameOutputs(deploy: string, order: seq<Package>, ps: seq<Package>)
    requires multiset(order) == multiset(ps)
    ensures Outputs(deploy, order) == Outputs(deploy, ps)
    ensures forall q :: q in order <==> q in ps
  {
    forall q ensures q in order <==> q in ps {
      assert q in order <==> q in multiset(order);
    }
  }

  /** When the packages before position `i` of a build order have written their debug
      outputs, every debug output that package `i` inlines exists. */
  lemma DependenciesBuilt(order: seq<Package>, i: nat, deploy: string, fs: FileSystem)
    requires i < |order| && DependenciesFirst(order)
    requires forall j :: 0 <= j < i ==> DebugPath(deploy, order[j].file) in fs
    ensures AllPresent(fs, DependencyPaths(deploy, order[i]))
  {
    var paths := DependencyPaths(deploy, order[i]);
    forall k | 0 <= k < |paths| ensures paths[k] in fs {
      var d := DepsOf(order[i])[k];
      assert d in DepsOf(order[i]);
      var j :| 0 <= j < i && order[j].file == d;
    }
  }
}

=== FILE: model.dfy ===
/** The project description as the build engine sees it: projects, packages,
    includes, build options and the errors a build can stop with. */
module Model {
  import opened Wrappers

  /** One source file of a package: a directory (`Path`) and a file name (`Text`). */
  datatype Include = Include(path: string, text: string)

  /** An output bundle. `file` is its output path relative to the deploy directory and
      doubles as its key; `dependencies` is null when the project file omits it. */
  datatype Package = Package(
    name: string,
    file: string,
    includeDependencies: bool,
    includes: seq<Include>,
    dependencies: Option<seq<string>>)

  /** A parsed project. `path` is the location of the project file itself. */
  datatype Project = Project(
    path: string,
    name: string,
    license: Option<string>,
    deployDir: string,
    packages: seq<Package>)

  /** The caller-supplied build options; each path may be unset (null). */
  datatype BuildOptions = BuildOptions(
    sourcePath: Option<string>,
    deployPath: Option<string>,
    destinationPath: Option<string>)

  /** Build options after defaulting: every path is set. */
  datatype Settings = Settings(sourcePath: string, deployPath: string, destinationPath: string)

  /** Which file a package build failed to read. */
  datatype FileRole = DependencyFile | IncludeFile

  /** Every way a build stops. */
  datatype BuildError =
    | DuplicatePackage(file: string)
    | CircularDependency(file: string)
    | UnresolvedDependency(dependency: string, package: string)
    | MissingFile(role: FileRole, path: string)

  /** The declared dependencies of a package; a null list declares none. */
  function DepsOf(p: Package): seq<string>
  {
    match p.dependencies
    case None => []
    case Some(ds) => ds
  }
}

=== FILE: paths.dfy ===
/** Path arithmetic of `System.IO.Path` on a single separator, and the two output
    paths the engine derives from a package's file identifier. */
module Paths {

  const Separator: char := '/'

  /** Index of the last `c` in `s`, or -1 when there is none. */
  function LastIndexOf(s: string, c: char): (i: int)
    ensures -1 <= i < |s|
    ensures i >= 0 ==> s[i] == c
    ensures forall j :: i < j < |s| ==> s[j] != c
    decreases |s|
  {
    if |s| == 0 then -1
    else if s[|s| - 1] == c then |s| - 1
    else LastIndexOf(s[..|s| - 1], c)
  }

  /** `LastIndexOf` is pinned down by its contract: the position of a `c` with no `c`
      after it, or -1 when `c` does not occur. */
  lemma LastIndexOfAt(s: string, c: char, k: int)
    requires (0 <= k < |s| && s[k] == c) || (k == -1 && c !in s)
    requires forall j :: k < j < |s| ==> s[j] != c
    ensures LastIndexOf(s, c) == k
  {
  }

  /** `Path.Combine(a, b)`: an empty operand yields the other; otherwise one separator
      joins them unless `a` already ends in one. */
  function Combine(a: string, b: string): string
  {
    if b == "" then a
    else if a == "" then b
    else if a[|a| - 1] == Separator then a + b
    else a + [Separator] + b
  }

  /** `Path.GetDirectoryName`: everything before the last separator, except that a
      separator at the very start is the root and stays. */
  function DirectoryName(s: string): string
  {
    var i := LastIndexOf(s, Separator);
    if i < 0 then "" else if i == 0 then [Separator] else s[..i]
  }

  /** `Path.GetFileName`: everything after the last separator. */
  function FileName(s: string): (r: string)
    ensures Separator !in r
  {
    s[LastIndexOf(s, Separator) + 1..]
  }

  /** The extension of a file name: from its last dot on, or "" when the name has no
      dot or ends in one. */
  function NameExtension(n: string): string
  {
    var d := LastIndexOf(n, '.');
    if d < 0 || d == |n| - 1 then "" else n[d..]
  }

  /** The stem of a file name: everything before its last dot. */
  function NameStem(n: string): string
  {
    var d := LastIndexOf(n, '.');
    if d < 0 then n else n[..d]
  }

  /** `Path.GetExtension`. */
  function Extension(s: string): string
  {
    NameExtension(FileName(s))
  }

  /** `Path.GetFileNameWithoutExtension`. */
  function FileNameWithoutExtension(s: string): string
  {
    NameStem(FileName(s))
  }

  /** A file name is its stem followed by its extension, except that a name ending in a
      dot keeps that dot out of both. */
  lemma StemAndExtension(n: string)
    ensures if NameExtension(n) == "" && '.' in n then NameStem(n) + "." == n
            else NameStem(n) + NameExtension(n) == n
  {
    var d := LastIndexOf(n, '.');
    if d >= 0 {
      assert n == n[..d] + n[d..];
    } else {
      assert '.' !in n;
    }
  }

  /** Stem and extension of a separator-free name are separator-free. */
  lemma NamePartsWithoutSeparator(n: string)
    requires Separator !in n
    ensures Separator !in NameStem(n) && Separator !in NameExtension(n)
  {
    var d := LastIndexOf(n, '.');
    if d >= 0 {
      assert forall k :: 0 <= k < d ==> n[..d][k] == n[k];
      assert forall k :: 0 <= k < |n| - d ==> n[d..][k] == n[d + k];
    }
  }

  /** A path is its directory, a separator and its file name; a path in the root is the
      root and its file name; a path without separator is all file name. */
  lemma DirectoryAndFileName(s: string)
    ensures LastIndexOf(s, Separator) > 0 ==> s == DirectoryName(s) + [Separator] + FileName(s)
    ensures LastIndexOf(s, Separator) == 0 ==> DirectoryName(s) == [Separator] && s == [Separator] + FileName(s)
    ensures Separator !in s ==> DirectoryName(s) == "" && FileName(s) == s
  {
    var i := LastIndexOf(s, Separator);
    if i >= 0 {
      SplitAtSeparator(s, i);
      assert i == 0 ==> s[..i] + [Separator] == [Separator];
    } else {
      assert FileName(s) == s[0..];
    }
  }

  lemma SplitAtSeparator(s: string, i: int)
    requires i == LastIndexOf(s, Separator) && i >= 0
    ensures s == s[..i] + [Separator] + FileName(s)
  {
    assert s[i] == Separator;
    assert s == s[..i] + [s[i]] + s[i + 1..];
  }

  /** Text ending in a separator, put in front of a path, leaves its file name alone. */
  lemma FileNameAfterSeparator(pre: string, b: string)
    requires |pre| > 0 && pre[|pre| - 1] == Separator
    ensures FileName(pre + b) == FileName(b)
  {
    var c := pre + b;
    var i := LastIndexOf(b, Separator);
    assert forall j :: |pre| <= j < |c| ==> c[j] == b[j - |pre|];
    if i >= 0 {
      LastIndexOfAt(c, Separator, |pre| + i);
      assert c[|pre| + i + 1..] == b[i + 1..];
    } else {
      assert c[|pre| - 1] == Separator;
      LastIndexOfAt(c, Separator, |pre| - 1);
      assert c[|pre|..] == b;
    }
  }

  /** Combining never changes the file name of a non-empty right operand; an empty one
      leaves the left operand as it is. */
  lemma FileNameOfCombine(a: string, b: string)
    ensures b != "" ==> FileName(Combine(a, b)) == FileName(b)
    ensures b == "" ==> Combine(a, b) == a
  {
    if a != "" && b != "" {
      var pre := if a[|a| - 1] == Separator then a else a + [Separator];
      assert Combine(a, b) == pre + b;
      FileNameAfterSeparator(pre, b);
    }
  }

  /** Where a package's minified output goes: its file identifier under the deploy path. */
  function MinifiedPath(deploy: string, file: string): string
  {
    Combine(deploy, file)
  }

  /** The name of the debug companion: "-debug" inserted before the extension. */
  function DebugFileName(deploy: string, file: string): string
  {
    FileNameWithoutExtension(MinifiedPath(deploy, file)) + "-debug" + Extension(file)
  }

  /** The debug companion name is the file identifier's own name with "-debug" before
      its extension, at least five characters longer and separator-free. An empty
      identifier leaves the minified path at the deploy path, whose stem is used; the
      code then fails when it writes to that directory. In every case the name differs
      from the file name of the minified path. */
  lemma DebugFileNameShape(deploy: string, file: string)
    ensures file != "" ==> var x := FileName(file);
      && DebugFileName(deploy, file) == NameStem(x) + "-debug" + NameExtension(x)
      && |DebugFileName(deploy, file)| >= |x| + 5
    ensures file == "" ==> DebugFileName(deploy, file) == NameStem(FileName(deploy)) + "-debug"
    ensures Separator !in DebugFileName(deploy, file)
    ensures DebugFileName(deploy, file) != FileName(MinifiedPath(deploy, file))
  {
    if file != "" {
      DebugNameOfIdentifier(deploy, file);
    } else {
      DebugNameOfEmpty(deploy);
    }
  }

  lemma DebugNameOfIdentifier(deploy: string, file: string)
    requires file != ""
    ensures var x := FileName(file);
      && DebugFileName(deploy, file) == NameStem(x) + "-debug" + NameExtension(x)
      && |DebugFileName(deploy, file)| >= |x| + 5
      && Separator !in DebugFileName(deploy, file)
      && FileName(MinifiedPath(deploy, file)) == x
  {
    var x := FileName(file);
    FileNameOfCombine(deploy, file);
    assert DebugFileName(deploy, file) == NameStem(x) + "-debug" + NameExtension(x);
    NamePartsWithoutSeparator(x);
    DebugNameWithoutSeparator(x, NameExtension(x));
    NamePartsLength(x);
  }

  lemma DebugNameOfEmpty(deploy: string)
    ensures DebugFileName(deploy, "") == NameStem(FileName(deploy)) + "-debug"
    ensures Separator !in DebugFileName(deploy, "")
    ensures DebugFileName(deploy, "") != FileName(MinifiedPath(deploy, ""))
  {
    var x := FileName(deploy);
    EmptyIdentifierName(deploy, "");
    DebugNameWithoutSeparator(x, "");
    assert NameStem(x) + "-debug" + "" == NameStem(x) + "-debug";
    StemDebugDiffers(x);
  }

  /** With an empty identifier the minified path is the deploy path, and the debug name
      is the deploy path's own stem with "-debug". */
  lemma EmptyIdentifierName(deploy: string, e: string)
    requires e == ""
    ensures MinifiedPath(deploy, e) == deploy
    ensures DebugFileName(deploy, e) == FileNameWithoutExtension(deploy) + "-debug"
  {
    var stem := FileNameWithoutExtension(MinifiedPath(deploy, e));
    assert stem == FileNameWithoutExtension(deploy);
    DebugFileNameParts(deploy, e);
    EmptyExtension();
    EmptySuffix(stem + "-debug", Extension(e));
  }

  lemma DebugFileNameParts(deploy: string, file: string)
    ensures DebugFileName(deploy, file)
      == FileNameWithoutExtension(MinifiedPath(deploy, file)) + "-debug" + Extension(file)
  {
  }

  lemma EmptySuffix(a: string, e: string)
    requires e == ""
    ensures a + e == a
  {
  }

  /** The empty path has no extension. */
  lemma EmptyExtension()
    ensures Extension("") == ""
  {
    assert LastIndexOf("", Separator) == -1 && FileName("") == "";
    assert LastIndexOf("", '.') == -1;
  }

  /** A debug companion name built from separator-free parts is separator-free. */
  lemma DebugNameWithoutSeparator(x: string, ext: string)
    requires Separator !in x && Separator !in ext
    ensures Separator !in NameStem(x) + "-debug" + ext
  {
    NamePartsWithoutSeparator(x);
    SeparatorFreeConcat(NameStem(x), "-debug");
    SeparatorFreeConcat(NameStem(x) + "-debug", ext);
  }

  /** Appending "-debug" to the stem of a name never gives back the name. */
  lemma StemDebugDiffers(x: string)
    ensures NameStem(x) + "-debug" != x
  {
    var d := LastIndexOf(x, '.');
    if d >= 0 {
      assert (x[..d] + "-debug")[d] == '-';
    }
  }

  /** Stem and extension together lose at most the trailing dot of a name. */
  lemma NamePartsLength(n: string)
    ensures |NameStem(n)| + |NameExtension(n)| + 1 >= |n|
  {
    StemAndExtension(n);
  }

  /** Joining a name at least five characters longer than the file name of `m` onto the
      directory of `m` gives a path longer than `m`. */
  lemma CombineDirectoryLonger(m: string, n: string)
    requires |n| >= |FileName(m)| + 5
    ensures |Combine(DirectoryName(m), n)| > |m|
  {
    DirectoryAndFileName(m);
  }

  lemma SeparatorFreeConcat(a: string, b: string)
    requires Separator !in a && Separator !in b
    ensures Separator !in a + b
  {
    assert forall k :: 0 <= k < |a + b| ==> (a + b)[k] == if k < |a| then a[k] else b[k - |a|];
  }

  /** A non-empty separator-free name joined onto a directory that does not end in a
      separator splits back into that directory and that name. */
  lemma CombineParts(dir: string, n: string)
    requires dir != "" && dir[|dir| - 1] != Separator && n != "" && Separator !in n
    ensures Combine(dir, n) == dir + [Separator] + n
    ensures DirectoryName(Combine(dir, n)) == dir && FileName(Combine(dir, n)) == n
  {
    var m := dir + [Separator] + n;
    assert forall j :: |dir| < j < |m| ==> m[j] == n[j - |dir| - 1];
    LastIndexOfAt(m, Separator, |dir|);
    assert m[..|dir|] == dir && m[|dir| + 1..] == n;
  }

  /** A dot-free stem followed by a one-dot extension splits back into the two. */
  lemma StemExtensionParts(stem: string, ext: string)
    requires Separator !in stem && '.' !in stem
    requires |ext| >= 2 && ext[0] == '.' && Separator !in ext && '.' !in ext[1..]
    ensures Separator !in stem + ext && FileName(stem + ext) == stem + ext
    ensures NameStem(stem + ext) == stem && NameExtension(stem + ext) == ext
  {
    var n := stem + ext;
    assert forall k :: 0 <= k < |n| ==> n[k] == if k < |stem| then stem[k] else ext[k - |stem|];
    LastIndexOfAt(n, Separator, -1);
    assert forall j :: |stem| < j < |n| ==> n[j] == ext[1..][j - |stem| - 1];
    LastIndexOfAt(n, '.', |stem|);
    assert n[..|stem|] == stem && n[|stem|..] == ext;
  }

  /** Where a package's debug output goes: the debug companion name in the directory of
      the minified output. Its file name is the debug companion name, so it never
      coincides with the minified path; for a non-empty identifier it is also longer. */
  function DebugPath(deploy: string, file: string): (r: string)
    ensures r != MinifiedPath(deploy, file)
    ensures file != "" ==> |r| > |MinifiedPath(deploy, file)|
    ensures FileName(r) == DebugFileName(deploy, file)
  {
    var m := MinifiedPath(deploy, file);
    var n := DebugFileName(deploy, file);
    DebugFileNameShape(deploy, file);
    FileNameOfCombine(deploy, file);
    FileNameOfCombine(DirectoryName(m), n);
    assert LastIndexOf(n, Separator) == -1;
    if file != "" then
      CombineDirectoryLonger(m, n);
      Combine(DirectoryName(m), n)
    else
      Combine(DirectoryName(m), n)
  }

  /** A plain file identifier `stem.ext` gets the debug companion name
      `stem-debug.ext`. */
  lemma PlainDebugFileName(deploy: string, stem: string, ext: string)
    requires deploy != "" && deploy[|deploy| - 1] != Separator
    requires Separator !in stem && '.' !in stem
    requires |ext| >= 2 && ext[0] == '.' && Separator !in ext && '.' !in ext[1..]
    ensures DebugFileName(deploy, stem + ext) == stem + "-debug" + ext
  {
    StemExtensionParts(stem, ext);
    CombineParts(deploy, stem + ext);
  }

  /** Under a deploy directory not ending in a separator, the debug output of a
      separator-free identifier sits directly in that directory. */
  lemma DebugPathInDeploy(deploy: string, n: string)
    requires deploy != "" && deploy[|deploy| - 1] != Separator && n != "" && Separator !in n
    ensures DebugPath(deploy, n) == deploy + [Separator] + DebugFileName(deploy, n)
  {
    CombineParts(deploy, n);
    DebugFileNameShape(deploy, n);
    CombineParts(deploy, DebugFileName(deploy, n));
  }

  /** For a plain file identifier `stem.ext` under a deploy directory, the minified
      output is `deploy/stem.ext` and the debug output is `deploy/stem-debug.ext`. */
  lemma PlainOutputPaths(deploy: string, stem: string, ext: string)
    requires deploy != "" && deploy[|deploy| - 1] != Separator
    requires Separator !in stem && '.' !in stem
    requires |ext| >= 2 && ext[0] == '.' && Separator !in ext && '.' !in ext[1..]
    ensures MinifiedPath(deploy, stem + ext) == deploy + [Separator] + (stem + ext)
    ensures DebugPath(deploy, stem + ext) == deploy + [Separator] + (stem + "-debug" + ext)
  {
    StemExtensionParts(stem, ext);
    CombineParts(deploy, stem + ext);
    PlainDebugFileName(deploy, stem, ext);
    DebugPathInDeploy(deploy, stem + ext);
  }
}

=== FILE: resolver.dfy ===
/** The build-order resolver: a depth-first topological sort of the packages, keyed by
    file identifier, that stops on a duplicate identifier, a dependency cycle or a
    dependency naming no package. */
module Resolver {
  import opened Wrappers
  import opened Model

  // ---------------------------------------------------------------------------
  // The dependency graph of a package sequence
  // ---------------------------------------------------------------------------

  /** Some package `f` declares a dependency on `g`. */
  ghost predicate DependsOn(ps: seq<Package>, f: string, g: string)
  {
    exists q :: q in ps && q.file == f && g in DepsOf(q)
  }

  /** Some package has file identifier `f`. */
  ghost predicate HasFile(ps: seq<Package>, f: string)
  {
    exists q :: q in ps && q.file == f
  }

  /** No two packages share a file identifier. */
  predicate UniqueFiles(ps: seq<Package>)
  {
    forall i, j :: 0 <= i < j < |ps| ==> ps[i].file != ps[j].file
  }

  /** Every declared dependency names a package. */
  ghost predicate Resolvable(ps: seq<Package>)
  {
    forall q, d :: q in ps && d in DepsOf(q) ==> HasFile(ps, d)
  }

  /** `c` walks dependency edges and returns to where it started; `[f, f]` is a
      self-dependency. */
  ghost predicate IsCycle(ps: seq<Package>, c: seq<string>)
  {
    && |c| >= 2
    && c[0] == c[|c| - 1]
    && forall k :: 0 <= k < |c| - 1 ==> DependsOn(ps, c[k], c[k + 1])
  }

  ghost predicate OnCycle(ps: seq<Package>, f: string)
  {
    exists c :: IsCycle(ps, c) && c[0] == f
  }

  ghost predicate Acyclic(ps: seq<Package>)
  {
    forall c :: !IsCycle(ps, c)
  }

  /** Consecutive entries of `path` are joined by dependency edges. */
  ghost predicate IsPath(ps: seq<Package>, path: seq<string>)
  {
    forall k :: 0 <= k < |path| - 1 ==> DependsOn(ps, path[k], path[k + 1])
  }

  /** No file identifier occurs twice in `order`. */
  predicate DistinctFiles(order: seq<Package>)
  {
    forall i, j :: 0 <= i < j < |order| ==> order[i].file != order[j].file
  }

  /** Every dependency of a package is the file of a package strictly earlier. */
  ghost predicate DependenciesFirst(order: seq<Package>)
  {
    forall i, d :: 0 <= i < |order| && d in DepsOf(order[i]) ==>
      exists j :: 0 <= j < i && order[j].file == d
  }

  /** A valid build order for `ps`: each package exactly once, dependencies first. */
  ghost predicate IsBuildOrder(ps: seq<Package>, order: seq<Package>)
  {
    && multiset(order) == multiset(ps)
    && DistinctFiles(order)
    && DependenciesFirst(order)
  }

  /** The resolver's errors describe the input truthfully. */
  ghost predicate ErrorExplained(ps: seq<Package>, e: BuildError)
  {
    match e
    case DuplicatePackage(f) =>
      exists i, j :: 0 <= i < j < |ps| && ps[i].file == f && ps[j].file == f
    case CircularDependency(f) => OnCycle(ps, f)
    case UnresolvedDependency(d, f) => DependsOn(ps, f, d) && !HasFile(ps, d)
    case MissingFile(_, _) => false
  }

  // ---------------------------------------------------------------------------
  // The lookup table
  // ---------------------------------------------------------------------------

  /** The `packages` dictionary of the source: file identifier to package. */
  type Table = map<string, Package>

  ghost predicate IsTableOf(tbl: Table, ps: seq<Package>)
  {
    && (forall f :: f in tbl ==> tbl[f] in ps && tbl[f].file == f)
    && (forall q :: q in ps ==> q.file in tbl && tbl[q.file] == q)
  }

  /** Adds the packages in order with `Dictionary.Add`, which fails on the first file
      identifier already present. */
  function BuildTable(ps: seq<Package>): (r: Result<Table, BuildError>)
    ensures r.Success? <==> UniqueFiles(ps)
    ensures r.Success? ==> IsTableOf(r.value, ps)
    ensures r.Failure? ==> r.error.DuplicatePackage? && ErrorExplained(ps, r.error)
    decreases |ps|
  {
    if ps == [] then Success(map[])
    else
      var init := ps[..|ps| - 1];
      var q := ps[|ps| - 1];
      assert ps == init + [q];
      match BuildTable(init)
      case Failure(e) =>
        var i, j :| 0 <= i < j < |init| && init[i].file == e.file && init[j].file == e.file;
        assert ps[i] == init[i] && ps[j] == init[j];
        Failure(e)
      case Success(t) =>
        if q.file in t then
          var i :| 0 <= i < |init| && init[i] == t[q.file];
          assert ps[i] == init[i];
          Failure(DuplicatePackage(q.file))
        else
          var t' := t[q.file := q];
          assert forall i :: 0 <= i < |init| ==> ps[i] == init[i] && init[i] in init;
          Success(t')
  }

  // ---------------------------------------------------------------------------
  // The traversal
  // ---------------------------------------------------------------------------

  /** The shared state of the source's traversal: the order built so far, the `added`
      set of its file identifiers, and the `visited` set of the current root. */
  datatype Walk = Walk(order: seq<Package>, added: set<string>, visited: set<string>)

  ghost predicate WalkInv(tbl: Table, ps: seq<Package>, w: Walk)
  {
    && (forall i :: 0 <= i < |w.order| ==> w.order[i] in ps)
    && w.added == (set i | 0 <= i < |w.order| :: w.order[i].file)
    && DistinctFiles(w.order)
    && DependenciesFirst(w.order)
    && (forall f :: f in w.visited ==> f in tbl && tbl[f].dependencies.Some?)
  }

  /** What a traversal step may do: extend the order and the two sets, add nothing that
      was already visited before the step, and leave the stack (visited but not added)
      as it found it. */
  ghost predicate Extends(w: Walk, w': Walk)
  {
    && w.order <= w'.order
    && w.added <= w'.added
    && w.visited <= w'.visited
    && (w'.added - w.added) !! w.visited
    && w'.visited - w'.added == w.visited - w.added
  }

  /** Appending a package whose dependencies are all added keeps the invariant. */
  lemma AppendKeepsInv(tbl: Table, ps: seq<Package>, w: Walk, p: Package)
    requires IsTableOf(tbl, ps) && p in ps && WalkInv(tbl, ps, w)
    requires p.file !in w.added
    requires forall d :: d in DepsOf(p) ==> d in w.added
    ensures WalkInv(tbl, ps, Walk(w.order + [p], w.added + {p.file}, w.visited))
  {
    var o := w.order + [p];
    forall i, d | 0 <= i < |o| && d in DepsOf(o[i])
      ensures exists j :: 0 <= j < i && o[j].file == d
    {
      if i < |w.order| {
        assert o[i] == w.order[i];
        var j :| 0 <= j < i && w.order[j].file == d;
        assert o[j] == w.order[j];
      } else {
        assert d in w.added;
        var j :| 0 <= j < |w.order| && w.order[j].file == d;
        assert o[j] == w.order[j];
      }
    }
    assert (set i | 0 <= i < |o| :: o[i].file) == w.added + {p.file} by {
      forall f | f in w.added ensures f in (set i | 0 <= i < |o| :: o[i].file) {
        var j :| 0 <= j < |w.order| && w.order[j].file == f;
        assert o[j] == w.order[j];
      }
      assert o[|w.order|] == p;
    }
    forall i, j | 0 <= i < j < |o| ensures o[i].file != o[j].file {
      if j == |w.order| {
        assert o[i] == w.order[i];
        assert w.order[i].file in w.added;
      }
    }
  }

  /** The file on top of the traversal stack that is visited again closes a cycle. */
  lemma CycleOnPath(ps: seq<Package>, path: seq<string>, f: string)
    requires IsPath(ps, path)
    requires f in path
    requires DependsOn(ps, path[|path| - 1], f)
    ensures OnCycle(ps, f)
  {
    var k :| 0 <= k < |path| && path[k] == f;
    var c := path[k..] + [f];
    forall m | 0 <= m < |c| - 1 ensures DependsOn(ps, c[m], c[m + 1]) {
      if m < |path| - k - 1 {
        assert c[m] == path[k + m] && c[m + 1] == path[k + m + 1];
      } else {
        assert c[m] == path[|path| - 1] && c[m + 1] == f;
      }
    }
    assert IsCycle(ps, c) && c[0] == f;
  }

  /** `visit(p, visited)`. Visiting an added package does nothing; a package with a null
      dependency list is appended at once; otherwise a package already visited from the
      current root closes a cycle, and a fresh one is marked visited, has its
      dependencies visited in declared order, and is appended.

      The ghost `path` is the traversal stack: the files visited but not yet added.
      Each successful call leaves that set as it found it, so an already added package
      never raises a cycle error, and a cycle error always names a file on a cycle. */
  function Visit(tbl: Table, ghost ps: seq<Package>, p: Package, w: Walk, ghost path: seq<string>)
    : (r: Result<Walk, BuildError>)
    requires IsTableOf(tbl, ps) && p in ps && WalkInv(tbl, ps, w)
    requires w.visited - w.added == set f | f in path
    requires IsPath(ps, path) && (|path| > 0 ==> DependsOn(ps, path[|path| - 1], p.file))
    ensures r.Success? ==>
      && WalkInv(tbl, ps, r.value)
      && Extends(w, r.value)
      && p.file in r.value.added
    ensures r.Failure? ==> ErrorExplained(ps, r.error)
    decreases tbl.Keys - w.visited, 0, 0
  {
    if p.file in w.added then Success(w)
    else match p.dependencies
      case None =>
        AppendKeepsInv(tbl, ps, w, p);
        Success(Walk(w.order + [p], w.added + {p.file}, w.visited))
      case Some(deps) =>
        if p.file in w.visited then
          assert p.file in w.visited - w.added;
          CycleOnPath(ps, path, p.file);
          Failure(CircularDependency(p.file))
        else
          var pushed := Walk(w.order, w.added, w.visited + {p.file});
          var path' := path + [p.file];
          Push(tbl, ps, p, w, path);
          match VisitDeps(tbl, ps, p, 0, pushed, path')
          case Failure(e) => Failure(e)
          case Success(w') =>
            AppendKeepsInv(tbl, ps, w', p);
            Pop(p, w, w');
            Success(Walk(w'.order + [p], w'.added + {p.file}, w'.visited))
  }

  /** Marking a fresh package visited pushes it on the stack and starts its dependency
      loop. */
  lemma Push(tbl: Table, ps: seq<Package>, p: Package, w: Walk, path: seq<string>)
    requires IsTableOf(tbl, ps) && p in ps && WalkInv(tbl, ps, w) && p.dependencies.Some?
    requires p.file !in w.visited && p.file !in w.added
    requires w.visited - w.added == set f | f in path
    requires IsPath(ps, path) && (|path| > 0 ==> DependsOn(ps, path[|path| - 1], p.file))
    ensures var pushed := Walk(w.order, w.added, w.visited + {p.file});
      WalkInv(tbl, ps, pushed) && DepsLoop(ps, p, 0, pushed, path + [p.file])
    ensures tbl.Keys - (w.visited + {p.file}) < tbl.Keys - w.visited
  {
    var path' := path + [p.file];
    assert (set f | f in path') == (set f | f in path) + {p.file};
    assert IsPath(ps, path');
    assert p.file in tbl;
  }

  /** Appending a package after its dependency loop pops it off the stack: the visit as
      a whole is a traversal step. */
  lemma Pop(p: Package, w: Walk, w': Walk)
    requires p.file !in w.visited && p.file !in w.added
    requires Extends(Walk(w.order, w.added, w.visited + {p.file}), w')
    ensures Extends(w, Walk(w'.order + [p], w'.added + {p.file}, w'.visited))
  {
    assert w.order <= w'.order + [p];
    assert w'.visited - (w'.added + {p.file}) == (w'.visited - w'.added) - {p.file};
    assert (w.visited + {p.file} - w.added) - {p.file} == w.visited - w.added;
  }

  /** The loop over `p`'s dependencies from index `i` on: a name the table holds is
      visited, any other name fails. */
  function VisitDeps(tbl: Table, ghost ps: seq<Package>, p: Package, i: nat, w: Walk, ghost path: seq<string>)
    : (r: Result<Walk, BuildError>)
    requires IsTableOf(tbl, ps) && p in ps && p.dependencies.Some?
    requires WalkInv(tbl, ps, w) && DepsLoop(ps, p, i, w, path)
    ensures r.Success? ==>
      && WalkInv(tbl, ps, r.value)
      && Extends(w, r.value)
      && (forall d :: d in DepsOf(p) ==> d in r.value.added)
    ensures r.Failure? ==> ErrorExplained(ps, r.error)
    decreases tbl.Keys - w.visited, 1, |DepsOf(p)| - i
  {
    if i == |DepsOf(p)| then Success(w)
    else
      var d := DepsOf(p)[i];
      if d in tbl then
        assert DependsOn(ps, path[|path| - 1], tbl[d].file);
        match Visit(tbl, ps, tbl[d], w, path)
        case Failure(e) => Failure(e)
        case Success(w1) =>
          DependencyStep(tbl, ps, p, i, w, w1, path);
          match VisitDeps(tbl, ps, p, i + 1, w1, path)
          case Failure(e) => Failure(e)
          case Success(w2) =>
            ExtendsTwice(w, w1, w2);
            Success(w2)
      else
        assert DependsOn(ps, p.file, d);
        assert !HasFile(ps, d);
        Failure(UnresolvedDependency(d, p.file))
  }

  /** The state of the dependency loop of `p` before dependency `i`: `p` is on top of
      the stack, visited but not added, and its first `i` dependencies are added. */
  ghost predicate DepsLoop(ps: seq<Package>, p: Package, i: nat, w: Walk, path: seq<string>)
  {
    && i <= |DepsOf(p)|
    && p.file in w.visited && p.file !in w.added
    && |path| > 0 && path[|path| - 1] == p.file && IsPath(ps, path)
    && w.visited - w.added == (set f | f in path)
    && forall k :: 0 <= k < i ==> DepsOf(p)[k] in w.added
  }

  /** After visiting dependency `i` of `p`, the dependency loop may go on with `i + 1`,
      and the files left to visit have not grown. */
  lemma DependencyStep(tbl: Table, ps: seq<Package>, p: Package, i: nat, w: Walk, w1: Walk, path: seq<string>)
    requires DepsLoop(ps, p, i, w, path) && i < |DepsOf(p)|
    requires Extends(w, w1) && DepsOf(p)[i] in w1.added
    ensures DepsLoop(ps, p, i + 1, w1, path)
    ensures tbl.Keys - w1.visited <= tbl.Keys - w.visited
  {
  }

  /** Two traversal steps in a row are a traversal step. */
  lemma ExtendsTwice(w: Walk, w1: Walk, w2: Walk)
    requires Extends(w, w1) && Extends(w1, w2)
    ensures Extends(w, w2)
  {
  }

  /** The outer loop: every package of the project, in declared order, is a root of a
      fresh traversal with an empty `visited` set. */
  function VisitAll(tbl: Table, ps: seq<Package>, i: nat, w: Walk): (r: Result<Walk, BuildError>)
    requires IsTableOf(tbl, ps) && i <= |ps| && WalkInv(tbl, ps, w)
    requires forall k :: 0 <= k < i ==> ps[k].file in w.added
    ensures r.Success? ==> WalkInv(tbl, ps, r.value) && forall q :: q in ps ==> q.file in r.value.added
    ensures r.Failure? ==> ErrorExplained(ps, r.error)
    decreases |ps| - i
  {
    if i == |ps| then Success(w)
    else
      var root := Walk(w.order, w.added, {});
      assert root.visited - root.added == set f | f in [];
      match Visit(tbl, ps, ps[i], root, [])
      case Failure(e) => Failure(e)
      case Success(w1) => VisitAll(tbl, ps, i + 1, w1)
  }

  /** `ResolveBuildOrder`: on success, every package exactly once with its dependencies
      before it; on failure, an error that the package sequence really exhibits. A
      project with a repeated file identifier always fails with `DuplicatePackage`. */
  function Resolve(ps: seq<Package>): (r: Result<seq<Package>, BuildError>)
    ensures r.Success? ==> UniqueFiles(ps) && IsBuildOrder(ps, r.value)
    ensures r.Failure? ==> ErrorExplained(ps, r.error)
    ensures !UniqueFiles(ps) ==> r.Failure? && r.error.DuplicatePackage?
  {
    match BuildTable(ps)
    case Failure(e) => Failure(e)
    case Success(tbl) =>
      match VisitAll(tbl, ps, 0, Walk([], {}, {}))
      case Failure(e) => Failure(e)
      case Success(w) =>
        OrderIsPermutation(tbl, ps, w);
        Success(w.order)
  }

  // ---------------------------------------------------------------------------
  // Each package exactly once
  // ---------------------------------------------------------------------------

  ghost predicate Distinct<T>(s: seq<T>)
  {
    forall i, j :: 0 <= i < j < |s| ==> s[i] != s[j]
  }

  /** In a sequence without repetitions every element occurs exactly once. */
  lemma {:induction false} DistinctMultiplicity<T>(s: seq<T>, x: T)
    requires Distinct(s)
    ensures multiset(s)[x] == if x in s then 1 else 0
    decreases |s|
  {
    if s != [] {
      assert s == [s[0]] + s[1..];
      assert Distinct(s[1..]) by {
        forall i, j | 0 <= i < j < |s[1..]| ensures s[1..][i] != s[1..][j] {
          assert s[1..][i] == s[i + 1] && s[1..][j] == s[j + 1];
        }
      }
      DistinctMultiplicity(s[1..], x);
      if x == s[0] {
        assert x !in s[1..] by {
          forall k | 0 <= k < |s[1..]| ensures s[1..][k] != x {
            assert s[1..][k] == s[k + 1];
          }
        }
      }
    }
  }

  /** Two repetition-free sequences with the same elements are permutations. */
  lemma SameElementsPermutation<T>(a: seq<T>, b: seq<T>)
    requires Distinct(a) && Distinct(b)
    requires forall x :: x in a <==> x in b
    ensures multiset(a) == multiset(b)
  {
    forall x ensures multiset(a)[x] == multiset(b)[x] {
      DistinctMultiplicity(a, x);
      DistinctMultiplicity(b, x);
    }
  }

  /** The finished order holds exactly the project's packages. */
  lemma OrderIsPermutation(tbl: Table, ps: seq<Package>, w: Walk)
    requires IsTableOf(tbl, ps) && UniqueFiles(ps) && WalkInv(tbl, ps, w)
    requires forall q :: q in ps ==> q.file in w.added
    ensures multiset(w.order) == multiset(ps)
  {
    forall i, j | 0 <= i < j < |w.order| ensures w.order[i] != w.order[j] {
    }
    forall x ensures x in w.order <==> x in ps {
      if x in ps {
        assert x.file in w.added;
        var j :| 0 <= j < |w.order| && w.order[j].file == x.file;
        assert w.order[j] in ps;
        assert w.order[j] == tbl[x.file] == x;
      }
    }
    SameElementsPermutation(w.order, ps);
  }

  // ---------------------------------------------------------------------------
  // When resolution succeeds
  // ---------------------------------------------------------------------------

  /** Every dependency edge points strictly backwards in a build order. */
  lemma EdgePointsBack(ps: seq<Package>, order: seq<Package>, f: string, g: string)
    requires IsBuildOrder(ps, order) && DependsOn(ps, f, g)
    ensures exists i, j :: 0 <= j < i < |order| && order[i].file == f && order[j].file == g
  {
    var q :| q in ps && q.file == f && g in DepsOf(q);
    assert q in multiset(ps);
    var i :| 0 <= i < |order| && order[i] == q;
    var j :| 0 <= j < i && order[j].file == g;
  }

  /** Along a dependency path starting at `c[0]`, positions in a build order strictly
      decrease: the `m`-th file sits at least `m` places before the first. */
  lemma {:induction false} PathDescends(ps: seq<Package>, order: seq<Package>, c: seq<string>, m: nat, i0: nat)
    requires IsBuildOrder(ps, order) && IsPath(ps, c)
    requires m < |c| && i0 < |order| && order[i0].file == c[0]
    ensures exists i :: 0 <= i < |order| && order[i].file == c[m] && i + m <= i0
    decreases m
  {
    if m > 0 {
      PathDescends(ps, order, c, m - 1, i0);
      var i :| 0 <= i < |order| && order[i].file == c[m - 1] && i + m - 1 <= i0;
      EdgePointsBack(ps, order, c[m - 1], c[m]);
      var i', j' :| 0 <= j' < i' < |order| && order[i'].file == c[m - 1] && order[j'].file == c[m];
      assert i' == i;
    }
  }

  /** A package sequence that has a build order has no dependency cycle. */
  lemma BuildOrderAcyclic(ps: seq<Package>, order: seq<Package>)
    requires IsBuildOrder(ps, order)
    ensures Acyclic(ps)
  {
    forall c | IsCycle(ps, c) ensures false {
      EdgePointsBack(ps, order, c[0], c[1]);
      var i0, j0 :| 0 <= j0 < i0 < |order| && order[i0].file == c[0] && order[j0].file == c[1];
      PathDescends(ps, order, c, |c| - 1, i0);
    }
  }

  /** A package sequence that has a build order declares only dependencies that name
      packages. */
  lemma BuildOrderResolvable(ps: seq<Package>, order: seq<Package>)
    requires IsBuildOrder(ps, order)
    ensures Resolvable(ps)
  {
    forall q, d | q in ps && d in DepsOf(q) ensures HasFile(ps, d) {
      assert q in multiset(ps);
      var i :| 0 <= i < |order| && order[i] == q;
      var j :| 0 <= j < i && order[j].file == d;
      assert order[j] in multiset(ps);
    }
  }

  /** Resolution succeeds exactly for packages with distinct file identifiers whose
      declared dependencies all name packages and form no cycle. */
  lemma ResolveSucceedsIffWellFormed(ps: seq<Package>)
    ensures Resolve(ps).Success? <==> UniqueFiles(ps) && Resolvable(ps) && Acyclic(ps)
  {
    var r := Resolve(ps);
    if r.Success? {
      BuildOrderAcyclic(ps, r.value);
      BuildOrderResolvable(ps, r.value);
    }
  }

  /** With distinct identifiers and resolvable names, any dependency cycle, a
      self-dependency included, makes resolution fail with a circular-dependency error
      naming a file that lies on a cycle. */
  lemma CycleFailsAsCircular(ps: seq<Package>, c: seq<string>)
    requires UniqueFiles(ps) && Resolvable(ps) && IsCycle(ps, c)
    ensures Resolve(ps).Failure?
    ensures Resolve(ps).error.CircularDependency?
    ensures OnCycle(ps, Resolve(ps).error.file)
  {
    ResolveSucceedsIffWellFormed(ps);
    var r := Resolve(ps);
    match r.error
    case DuplicatePackage(f) =>
    case CircularDependency(f) =>
    case UnresolvedDependency(d, f) =>
  }

  /** A package that lists its own file identifier among its dependencies can never be
      resolved. */
  lemma SelfDependencyFails(ps: seq<Package>, q: Package)
    requires q in ps && q.file in DepsOf(q)
    ensures Resolve(ps).Failure?
  {
    var c := [q.file, q.file];
    assert DependsOn(ps, c[0], c[1]);
    assert IsCycle(ps, c);
    ResolveSucceedsIffWellFormed(ps);
  }

  /** A dependency naming no package can never be resolved. */
  lemma MissingReferenceFails(ps: seq<Package>, q: Package, d: string)
    requires q in ps && d in DepsOf(q)
    requires forall p :: p in ps ==> p.file != d
    ensures Resolve(ps).Failure?
  {
    ResolveSucceedsIffWellFormed(ps);
  }

  // ---------------------------------------------------------------------------
  // Declared order as the tie-break
  // ---------------------------------------------------------------------------

  /** A dependency loop whose dependencies are all added already finds each of them
      added and changes nothing. */
  lemma {:induction false} VisitDepsAllAdded(tbl: Table, ps: seq<Package>, p: Package, i: nat, w: Walk,
                                             path: seq<string>)
    requires IsTableOf(tbl, ps) && p in ps && p.dependencies.Some?
    requires WalkInv(tbl, ps, w) && DepsLoop(ps, p, i, w, path)
    requires forall d :: d in DepsOf(p) ==> d in w.added
    ensures VisitDeps(tbl, ps, p, i, w, path) == Success(w)
    decreases |DepsOf(p)| - i
  {
    if i < |DepsOf(p)| {
      var d := DepsOf(p)[i];
      assert d in w.added;
      var k :| 0 <= k < |w.order| && w.order[k].file == d;
      assert w.order[k] in ps;
      assert d in tbl && tbl[d].file == d;
      assert Visit(tbl, ps, tbl[d], w, path) == Success(w);
      assert DepsLoop(ps, p, i + 1, w, path);
      VisitDepsAllAdded(tbl, ps, p, i + 1, w, path);
    }
  }

  /** A root not yet added whose dependencies are all added is appended as it is. */
  lemma VisitReadyRoot(tbl: Table, ps: seq<Package>, p: Package, w: Walk)
    requires IsTableOf(tbl, ps) && p in ps && WalkInv(tbl, ps, w) && w.visited == {}
    requires p.file !in w.added && forall d :: d in DepsOf(p) ==> d in w.added
    ensures w.visited - w.added == set f | f in []
    ensures Visit(tbl, ps, p, w, []).Success?
    ensures Visit(tbl, ps, p, w, []).value.order == w.order + [p]
  {
    assert w.visited - w.added == set f | f in [];
    if p.dependencies.Some? {
      var pushed := Walk(w.order, w.added, w.visited + {p.file});
      Push(tbl, ps, p, w, []);
      VisitDepsAllAdded(tbl, ps, p, 0, pushed, [] + [p.file]);
    }
  }

  /** Roots visited in declared order, each finding its dependencies already added,
      extend the order one declared package at a time. */
  lemma {:induction false} VisitAllKeepsOrder(tbl: Table, ps: seq<Package>, i: nat, w: Walk)
    requires IsTableOf(tbl, ps) && UniqueFiles(ps) && DependenciesFirst(ps)
    requires i <= |ps| && WalkInv(tbl, ps, w) && w.order == ps[..i]
    requires forall k :: 0 <= k < i ==> ps[k].file in w.added
    ensures VisitAll(tbl, ps, i, w).Success?
    ensures VisitAll(tbl, ps, i, w).value.order == ps
    decreases |ps| - i
  {
    if i == |ps| {
      assert ps[..i] == ps;
    } else {
      var root := Walk(w.order, w.added, {});
      RootInOrder(tbl, ps, i, w, root);
      var w1 := Visit(tbl, ps, ps[i], root, []).value;
      VisitAllKeepsOrder(tbl, ps, i + 1, w1);
    }
  }

  /** The root at position `i` of a dependencies-first declaration is appended as it
      is, after the roots before it. */
  lemma RootInOrder(tbl: Table, ps: seq<Package>, i: nat, w: Walk, root: Walk)
    requires IsTableOf(tbl, ps) && UniqueFiles(ps) && DependenciesFirst(ps)
    requires i < |ps| && WalkInv(tbl, ps, w) && w.order == ps[..i]
    requires root == Walk(w.order, w.added, {})
    ensures WalkInv(tbl, ps, root)
    ensures root.visited - root.added == set f | f in []
    ensures Visit(tbl, ps, ps[i], root, []).Success?
    ensures var w1 := Visit(tbl, ps, ps[i], root, []).value;
      && WalkInv(tbl, ps, w1)
      && w1.order == ps[..i + 1]
      && forall k :: 0 <= k < i + 1 ==> ps[k].file in w1.added
  {
    var p := ps[i];
    assert ps[i] in ps;
    forall k | 0 <= k < |w.order| ensures w.order[k].file != p.file {
      assert w.order[k] == ps[k];
    }
    assert p.file !in w.added;
    forall d | d in DepsOf(p) ensures d in w.added {
      var j :| 0 <= j < i && ps[j].file == d;
      assert w.order[j] == ps[j];
    }
    VisitReadyRoot(tbl, ps, p, root);
    var w1 := Visit(tbl, ps, p, root, []).value;
    assert w1.order == ps[..i + 1];
    forall k | 0 <= k < i + 1 ensures ps[k].file in w1.added {
      assert w1.order[k] == ps[k];
    }
  }

  /** Packages declared dependencies-first, with distinct file identifiers, resolve to
      their declared order: the roots are visited in that order, and each finds its
      dependencies already added. */
  lemma ResolveKeepsBuildOrder(ps: seq<Package>)
    requires UniqueFiles(ps) && DependenciesFirst(ps)
    ensures Resolve(ps) == Success(ps)
  {
    var tbl := BuildTable(ps).value;
    VisitAllKeepsOrder(tbl, ps, 0, Walk([], {}, {}));
  }

  /** A project in which no package declares a dependency resolves to its declared order. */
  lemma ResolveKeepsIndependentOrder(ps: seq<Package>)
    requires UniqueFiles(ps) && forall q :: q in ps ==> DepsOf(q) == []
    ensures Resolve(ps) == Success(ps)
  {
    forall i | 0 <= i < |ps| ensures DepsOf(ps[i]) == [] {
      assert ps[i] in ps;
    }
    ResolveKeepsBuildOrder(ps);
  }
}

=== FILE: resolver_examples.dfy ===
/** Small projects whose resolution outcome is worked out in full. */
module ResolverExamples {
  import opened Wrappers
  import opened Model
  import opened Resolver

  function Pkg(file: string, deps: Option<seq<string>>): Package
  {
    Package(file, file, false, [], deps)
  }

  const A: Package := Pkg("a.js", None)
  const B: Package := Pkg("b.js", Some(["a.js"]))
  const C: Package := Pkg("c.js", Some(["b.js"]))
  /** The chain declared out of order. */
  const Chain: seq<Package> := [C, A, B]

  /** `a.js`, `b.js`, `c.js` in that order is a build order of the chain. */
  lemma ChainHasBuildOrder()
    ensures IsBuildOrder(Chain, [A, B, C])
  {
    assert multiset([A, B, C]) == multiset(Chain);
    assert DepsOf(A) == [] && DepsOf(B) == ["a.js"] && DepsOf(C) == ["b.js"];
    assert [A, B, C][0] == A && [A, B, C][1] == B && [A, B, C][2] == C;
  }

  /** A dependencies-first permutation of the chain starts with the one package that
      needs nothing and continues with the one that needs only it. */
  lemma ChainOrderIsUnique(order: seq<Package>)
    requires IsBuildOrder(Chain, order)
    ensures order == [A, B, C]
  {
    assert |order| == 3 by {
      assert |multiset(order)| == |multiset(Chain)|;
    }
    forall i | 0 <= i < 3 ensures order[i] in {A, B, C} {
      assert order[i] in multiset(order);
    }
    assert DepsOf(A) == [] && DepsOf(B) == ["a.js"] && DepsOf(C) == ["b.js"];
    assert "b.js" in DepsOf(C) && "a.js" in DepsOf(B);
    assert order[0] == A;
    assert order[1] == B;
    assert C in multiset(order);
    assert order[2] == C;
  }

  /** `c.js` needs `b.js`, which needs `a.js`: declared out of order, they still
      resolve to a, b, c. */
  lemma ChainResolvesInDependencyOrder()
    ensures Resolve(Chain) == Success([A, B, C])
  {
    ChainHasBuildOrder();
    BuildOrderAcyclic(Chain, [A, B, C]);
    BuildOrderResolvable(Chain, [A, B, C]);
    ResolveSucceedsIffWellFormed(Chain);
    ChainOrderIsUnique(Resolve(Chain).value);
  }

  /** `x.js` and `y.js` need each other: resolution fails with a circular-dependency
      error naming one of the two. */
  lemma MutualDependencyIsCircular()
    ensures var x := Pkg("x.js", Some(["y.js"]));
      var y := Pkg("y.js", Some(["x.js"]));
      var r := Resolve([x, y]);
      r.Failure? && r.error.CircularDependency? && r.error.file in {"x.js", "y.js"}
  {
    var x := Pkg("x.js", Some(["y.js"]));
    var y := Pkg("y.js", Some(["x.js"]));
    var ps := [x, y];
    assert DependsOn(ps, "x.js", "y.js") && DependsOn(ps, "y.js", "x.js");
    var c := ["x.js", "y.js", "x.js"];
    assert IsCycle(ps, c);
    assert Resolvable(ps) by {
      forall q, d | q in ps && d in DepsOf(q) ensures HasFile(ps, d) {
        assert d == "x.js" ==> x in ps;
        assert d == "y.js" ==> y in ps;
      }
    }
    CycleFailsAsCircular(ps, c);
    var f := Resolve(ps).error.file;
    var c' :| IsCycle(ps, c') && c'[0] == f;
    assert DependsOn(ps, c'[0], c'[1]);
  }

  /** `z.js` needs `missing.js`, which no package provides: resolution fails naming both. */
  lemma MissingDependencyIsUnresolved()
    ensures Resolve([Pkg("z.js", Some(["missing.js"]))])
      == Failure(UnresolvedDependency("missing.js", "z.js"))
  {
    var z := Pkg("z.js", Some(["missing.js"]));
    var ps := [z];
    var tbl := map["z.js" := z];
    assert BuildTable(ps) == Success(tbl);
    var w := Walk([], {}, {"z.js"});
    assert VisitDeps(tbl, ps, z, 0, w, ["z.js"]) == Failure(UnresolvedDependency("missing.js", "z.js"));
  }
}

=== FILE: text.dfy ===
/** String operations the build engine borrows from the .NET base library:
    `String.Split(char)`, `String.TrimEnd(char)`, `TextWriter.WriteLine` and
    `ToLowerInvariant`, restricted to what the engine relies on. */
module Text {

  /** The line terminator `TextWriter.WriteLine` appends. */
  const NewLine: string := "\n"

  /** The inverse of `Split`: the parts with the separator between each pair. */
  function Join(parts: seq<string>, sep: char): string
    requires |parts| >= 1
  {
    if |parts| == 1 then parts[0] else parts[0] + [sep] + Join(parts[1..], sep)
  }

  /** `String.Split(sep)`: every separator starts a new part, so empty parts are kept
      and there is always one more part than there are separators. */
  function Split(s: string, sep: char): (parts: seq<string>)
    ensures |parts| >= 1
    ensures forall i :: 0 <= i < |parts| ==> sep !in parts[i]
    ensures Join(parts, sep) == s
    decreases |s|
  {
    if |s| == 0 then [""]
    else
      var rest := Split(s[1..], sep);
      if s[0] == sep then
        assert ([""] + rest)[1..] == rest;
        [""] + rest
      else
        var parts := [[s[0]] + rest[0]] + rest[1..];
        assert parts[1..] == rest[1..];
        assert s == [s[0]] + s[1..];
        parts
  }

  /** Splitting text that begins with a separator-free part and a separator yields that
      part followed by the split of the remainder. */
  lemma {:induction false} SplitAfterPart(x: string, y: string, sep: char)
    requires sep !in x
    ensures Split(x + [sep] + y, sep) == [x] + Split(y, sep)
    decreases |x|
  {
    var s := x + [sep] + y;
    if |x| == 0 {
      assert s[0] == sep && s[1..] == y;
    } else {
      assert s[0] == x[0];
      assert s[1..] == x[1..] + [sep] + y;
      SplitAfterPart(x[1..], y, sep);
      assert [x[0]] + x[1..] == x;
    }
  }

  /** A separator-free string splits into itself alone. */
  lemma {:induction false} SplitWithoutSeparator(x: string, sep: char)
    requires sep !in x
    ensures Split(x, sep) == [x]
    decreases |x|
  {
    if |x| > 0 {
      SplitWithoutSeparator(x[1..], sep);
      assert [x[0]] + x[1..] == x;
    }
  }

  /** `Split` undoes `Join` whenever no part contains the separator. */
  lemma {:induction false} SplitJoin(parts: seq<string>, sep: char)
    requires |parts| >= 1
    requires forall i :: 0 <= i < |parts| ==> sep !in parts[i]
    ensures Split(Join(parts, sep), sep) == parts
    decreases |parts|
  {
    if |parts| == 1 {
      SplitWithoutSeparator(parts[0], sep);
    } else {
      SplitJoin(parts[1..], sep);
      SplitAfterPart(parts[0], Join(parts[1..], sep), sep);
      assert [parts[0]] + parts[1..] == parts;
    }
  }

  /** `String.TrimEnd(c)`: the longest prefix that does not end in `c`. */
  function TrimEnd(s: string, c: char): (r: string)
    ensures r <= s
    ensures forall i :: |r| <= i < |s| ==> s[i] == c
    ensures |r| == 0 || r[|r| - 1] != c
    decreases |s|
  {
    if |s| > 0 && s[|s| - 1] == c then TrimEnd(s[..|s| - 1], c) else s
  }

  /** The text a `TextWriter` holds after `WriteLine` of each string in turn. */
  function Lines(ts: seq<string>): string
  {
    if ts == [] then "" else ts[0] + NewLine + Lines(ts[1..])
  }

  /** Writing one more line appends it, terminated, to what was written before. */
  lemma {:induction false} LinesSnoc(ts: seq<string>, t: string)
    ensures Lines(ts + [t]) == Lines(ts) + t + NewLine
    decreases |ts|
  {
    if ts == [] {
      assert [] + [t] == [t];
    } else {
      assert (ts + [t])[1..] == ts[1..] + [t];
      LinesSnoc(ts[1..], t);
    }
  }

  /** Terminated lines are the lines joined by newlines, followed by an empty last part. */
  lemma {:induction false} LinesAsJoin(ts: seq<string>)
    ensures Lines(ts) == Join(ts + [""], '\n')
    decreases |ts|
  {
    if ts != [] {
      LinesAsJoin(ts[1..]);
      assert (ts + [""])[1..] == ts[1..] + [""];
    }
  }

  /** Lines that contain no newline are recovered by splitting their written text. */
  lemma SplitLines(ts: seq<string>)
    requires forall i :: 0 <= i < |ts| ==> '\n' !in ts[i]
    ensures Split(Lines(ts), '\n') == ts + [""]
  {
    LinesAsJoin(ts);
    SplitJoin(ts + [""], '\n');
  }

  /** `Char.ToLowerInvariant` on the ASCII letters; other characters are unchanged. */
  function LowerChar(ch: char): char
  {
    if 'A' <= ch <= 'Z' then (ch as int + 32) as char else ch
  }

  /** `String.ToLowerInvariant`, character by character: no capital letter is left,
      every other character stays, and each capital becomes the small letter at the same
      place in the alphabet. */
  function Lower(s: string): (r: string)
    ensures |r| == |s|
    ensures forall i :: 0 <= i < |r| ==> !('A' <= r[i] <= 'Z')
    ensures forall i :: 0 <= i < |s| && !('A' <= s[i] <= 'Z') ==> r[i] == s[i]
    ensures forall i :: 0 <= i < |s| && 'A' <= s[i] <= 'Z' ==>
      'a' <= r[i] <= 'z' && r[i] as int - 'a' as int == s[i] as int - 'A' as int
  {
    seq(|s|, i requires 0 <= i < |s| => LowerChar(s[i]))
  }
}

=== FILE: wrappers.dfy ===
/** Failure-carrying values used in place of the source's null references and
    thrown exceptions. */
module Wrappers {

  /** A value that may be absent (a C# null reference). */
  datatype Option<+T> = None | Some(value: T)

  /** The outcome of an operation that either produces a value or fails with an error. */
  datatype Result<+T, +E> = Success(value: T) | Failure(error: E)
}
